=== FILE: README.md ===
# Online shop back end — a Dafny model of the service layer

This project models the service layer of an online-shop back end (ASP.NET Core, Entity
Framework Core, AutoMapper). It covers the following operations:

- **Catalogue:**
  - categories: read, add, update and delete;
  - products: read, create, restock and delete.
- **Cart:** read, add a product and remove a line.
- **Orders:** checkout, which turns the caller's cart into an order, and the caller's order
  history.
- **Accounts:** registration and log-in.
- **Seeding:** the start-up seeder.
- **Projections:** the AutoMapper projections that shape what every operation returns.

The database is one immutable value, `Models.Store`:

- Users, categories, cart lines and orders are sequences in insertion (identity) order.
- Products form a map from id to row.
- Each table has an identity counter; a deleted id is never handed out again.
- `Models.Wf` is the identity discipline the operations keep: ids are positive, below their
  table's counter and strictly increasing.

A state-changing operation is a function from a store to `Envelope.Step`, which pairs the
`ServiceResponse` envelope with the store it commits. The envelope has `success`, `message` and
`data`; `data` is `None` when the operation leaves `Data` at its default.

Modelling choices:

- **Integers.** `Stock` and `Quantity` are C# `int` updated with `+=` / `-=` in an unchecked
  context, so they use the 32-bit wrap-around `Primitives.Wrap32`. Prices are `decimal` and
  are modelled as exact integers (minor units). Ids are unbounded.
- **The caller.** The authenticated user's id, the clock, the GUID of an upload, the password
  hasher and the token minter are all parameters.
- **Case.** `ToLower` is modelled as ASCII case folding.
- **Lookups.** A lookup without `ORDER BY` (`FirstOrDefault`) returns the first match in id
  order.
- **Dangling references.** `AppDbContext` is not part of this model, so the model assumes
  no foreign-key enforcement and no cascading deletes. It therefore admits a cart line or
  order line whose product is gone, and a product whose category is gone. Under Entity
  Framework's conventions these relationships would be required, `Include` would be an inner
  join and deletes would cascade, so such rows would not arise. The model assumes instead:
  - A projection of a missing navigation property follows AutoMapper's null-safe `MapFrom`:
    a price becomes `0` and a string member is left null. The model has no null strings and
    represents that null as `""`.
  - Checkout over a line whose product is missing fails with the error middleware's generic
    internal-error message, as a null dereference would, and the save never happens.

## Model

| member | source | states |
|---|---|---|
| Primitives.Wrap32 | Backend/Services/Productservice.cs:138 | an in-range `int` result is unchanged; the result is always a 32-bit value |
| Primitives.WrapTwice | Backend/Services/Orderservice.cs:77-80 | two successive wrapped updates equal one wrapped update by the sum, which is what makes repeated `+=`/`-=` on an `int` column compose |
| Models.AppendCategoryWf | Backend/Services/CategoryService.cs:48-50 | storing a row under the next identity keeps ids positive, below the counter and increasing |
| Models.FindCategoryUnique | Backend/Services/CategoryService.cs:33 | with unique ids, lookup by key finds exactly the stored category with that id |
| Models.CategoryIndex | Backend/Services/CategoryService.cs:33 | finds the first category with the id, and finds none exactly when no category has it |
| Models.CartOf | Backend/Services/CartService.cs:32-35 | every selected line is one of the table's lines and is owned by the user, and there are no more of them than the table holds |
| Models.CartOfComplete | Backend/Services/CartService.cs:32-35 | every line owned by the user is in the user's cart (the filter drops none) |
| Mapping.ProductCategoryName | Backend/Helpers/MappingProfile.cs:16-17 | a product's `CategoryName` is the name of the category its `CategoryId` references |
| Mapping.ProductToDto | Backend/Helpers/MappingProfile.cs:16-17 | the row's fields are copied; `CategoryName` is the name of the first category with the product's `CategoryId`, or empty when none has it |
| Mapping.CartLineToDto | Backend/Helpers/MappingProfile.cs:34-40 | id, product and quantity come from the line; name, image and price from the live product row, so `TotalPrice` is live price × quantity; with the row missing those are empty and the item is worth 0 |
| Mapping.OrderLineToDto | Backend/Helpers/MappingProfile.cs:48-52 | product, quantity and price come from the order line; the name from the product row, or empty when it is missing |
| Mapping.OrderToDto | Backend/Helpers/MappingProfile.cs:45-46 | header fields copied; one item per line, in order, with the line's product, quantity and price |
| Mapping.CartItemFollowsRepricing | Backend/Helpers/MappingProfile.cs:38 | repricing a product changes the price its cart items show at once |
| Mapping.OrderItemIsSnapshot | Backend/Helpers/MappingProfile.cs:48-52 | an order item's price is the one stored on the order line, whatever the product rows say |
| Mapping.OrderItemsAreLines | Backend/Helpers/MappingProfile.cs:45-46 | an order's items are its lines one for one, in order, independent of live prices |
| Mapping.ProductMappingIgnoresImage | Backend/Helpers/MappingProfile.cs:19-20 | mapping a create request never takes the image from the request |
| Mapping.UserMappingIgnoresPassword | Backend/Helpers/MappingProfile.cs:27-28 | mapping a registration never stores anything derived from the password |
| CategoryService.GetAllCategories | Backend/Services/CategoryService.cs:22-28 | lists every category once, in table order, with its id, name and description |
| CategoryService.AddThenListed | Backend/Services/CategoryService.cs:22-28 | after adding a category the list is the old list followed by the new category, under the next id with the request's name and description |
| CategoryService.GetCategoryById | Backend/Services/CategoryService.cs:30-44 | succeeds exactly when a category has the id; a miss answers "Category not found." with no data |
| CategoryService.AddCategory | Backend/Services/CategoryService.cs:46-52 | appends one category under the next id; reading it back succeeds with the request's name and description; nothing else changes |
| CategoryService.UpdateCategory | Backend/Services/CategoryService.cs:54-69 | a missing id fails and changes nothing; otherwise only that category's name and description change, in place |
| CategoryService.DeleteCategory | Backend/Services/CategoryService.cs:71-87 | a missing id fails and changes nothing; otherwise exactly that category is removed and the response carries `true` |
| CategoryService.DeleteThenGetFails | Backend/Services/CategoryService.cs:71-87 | after deleting a category, reading it fails |
| CategoryService.AddThenGet | Backend/Services/CategoryService.cs:51 | an added category reads back under its new id with the request's fields |
| CategoryService.RemoveAtKeepsIds | Backend/Services/CategoryService.cs:83 | removing a row keeps the remaining ids increasing |
| ProductService.GetProductById | Backend/Services/Productservice.cs:36-51 | succeeds exactly when the id is in the catalogue, with its projection; otherwise "Product not found." |
| ProductService.FindCategoryByName | Backend/Services/Productservice.cs:66-70 | the first stored category whose name equals the given one ignoring case (no earlier category matches), and none exactly when no name matches |
| ProductService.CategoryNameIndex | Backend/Services/Productservice.cs:68-69 | index of the first category whose name matches ignoring case; none exactly when none matches |
| ProductService.ResolveCategory | Backend/Services/Productservice.cs:59-77 | a positive id that exists wins; otherwise a non-empty name picks the first category with that name ignoring case (none exactly when no name matches); otherwise no category |
| ProductService.ImageUrl | Backend/Services/Productservice.cs:80-105 | no upload gets the placeholder; an upload gets a URL that starts with `/images/`, then the GUID, and ends with the file name, and is never the placeholder |
| ProductService.ImageUrlDistinguishesUploads | Backend/Services/Productservice.cs:85-104 | uploads under different GUIDs of equal length never share a URL, whatever their file names |
| ProductService.CreateProduct | Backend/Services/Productservice.cs:53-122 | an unresolved category fails and changes nothing; otherwise one product is stored under the next id with the request's fields, the resolved category and the image URL, and the response is that stored row's projection (name, description, price, stock, image, ids) with the resolved category's name |
| ProductService.AddStock | Backend/Services/Productservice.cs:124-147 | a missing product fails; otherwise only that product's stock changes, by the requested amount with `int` wrap-around, and the response shows the new row |
| ProductService.DeleteProduct | Backend/Services/Productservice.cs:149-165 | a missing product fails; otherwise exactly that product is removed and the response carries `true` |
| ProductService.CreateThenGet | Backend/Services/Productservice.cs:117-118 | a created product reads back with its name and its category's name |
| ProductService.AddStockComposes | Backend/Services/Productservice.cs:138 | restocking by `a` then `b` equals one restock by `a + b` (modulo 2^32) |
| ProductService.AddStockExact | Backend/Services/Productservice.cs:138 | without overflow, restocking adds exactly the amount; a negative amount lowers stock, since nothing checks the sign |
| ProductService.DeleteThenGetFails | Backend/Services/Productservice.cs:149-165 | a deleted product can no longer be read; deleting or restocking by any amount never touches stored orders |
| CartService.LineIndex | Backend/Services/CartService.cs:55-56 | finds a line of that user for that product with no earlier such line, and none exactly when there is none |
| CartService.OwnedLineIndex | Backend/Services/CartService.cs:76-77 | finds a line with that id owned by that user with no earlier such line, and none exactly when there is none |
| CartService.GetMyCart | Backend/Services/CartService.cs:27-40 | succeeds with one item per line of the caller, in order, each with the line's id, product and quantity and the live product's name, image and price; a line whose product is missing shows empty name and image and price 0 |
| CartService.AddToCart | Backend/Services/CartService.cs:42-71 | an unknown product fails and changes nothing; an existing line of the caller for the product gains the quantity (wrap-around); otherwise a new line is appended; the response is the caller's cart after the change |
| CartService.AddToCartKeepsUnique | Backend/Services/CartService.cs:55-67 | adding keeps at most one line per user and product |
| CartService.AddToCartKeepsWf | Backend/Services/CartService.cs:64-69 | adding keeps the identity discipline |
| CartService.RemoveFromCart | Backend/Services/CartService.cs:73-87 | only a line with that id owned by the caller is removed, with "Item removed."; otherwise "Item not found." and nothing changes |
| CartService.RemoveFromCartKeepsUnique | Backend/Services/CartService.cs:84 | removal keeps at most one line per user and product |
| CartService.RemoveFromCartKeepsWf | Backend/Services/CartService.cs:84-85 | removal keeps the identity discipline |
| CartService.AddTwiceMerges | Backend/Services/CartService.cs:58-67 | adding a product twice leaves one new line holding the summed quantity |
| CartService.AddOneToCart | Backend/DTOs/Cart/CartDto.cs:21 | a product added without a quantity opens a line of one for the caller or adds exactly one to the caller's line, and no other line changes |
| CartService.RemoveOthersLineFails | Backend/Services/CartService.cs:76-82 | a caller cannot remove another user's line; the store is unchanged |
| CartService.RemoveIsFinal | Backend/Services/CartService.cs:84-86 | after a successful removal no line with that id is left |
| OrderService.DecrementStock | Backend/Services/Orderservice.cs:77-80 | the line-by-line loop keeps every key and leaves exactly the closed form `Lowered`: each product lowered by the total quantity of the lines naming it (wrap-around), other fields untouched |
| OrderService.DecrementStep | Backend/Services/Orderservice.cs:77-80 | one turn of the loop: the remaining lines applied after the first line's decrement give what all lines give from the start |
| OrderService.DecrementTwice | Backend/Services/Orderservice.cs:77-80 | two successive decrements of a stock equal one decrement by the sum |
| OrderService.Checkout | Backend/Services/Orderservice.cs:42-90 | empty cart: "Cart is empty." and no change; a line whose product is gone: the generic internal error and no change; otherwise one order is appended with status "Completed", the clock's date and one line per cart line at the live price; its total is Σ price × quantity; stock falls by the ordered quantities; exactly the caller's cart lines are removed; the response is the order's projection |
| OrderService.CheckoutStock | Backend/Services/Orderservice.cs:77-80 | each ordered product loses exactly its line's quantity and every product not ordered is unchanged |
| OrderService.DecrementStockExact | Backend/Services/Orderservice.cs:77-80 | with one line per product, the stock loop matches the per-product description |
| OrderService.CheckoutProducts | Backend/Services/Orderservice.cs:77-84 | the product rows a checkout saves are the cart's decrement |
| OrderService.DecrementStockOrdered | Backend/Services/Orderservice.cs:77-80 | an ordered product's stock falls by its line's quantity |
| OrderService.DecrementStockUnordered | Backend/Services/Orderservice.cs:77-80 | products no line mentions are left as they were |
| OrderService.CheckoutMayOversell | Backend/Services/Orderservice.cs:79 | without overflow, stock falls by exactly the ordered quantity even below zero, since nothing checks that enough stock exists |
| OrderService.CartTotal | Backend/Services/Orderservice.cs:59 | the checkout sum equals the sum of the `TotalPrice` figures the cart view shows for the same lines |
| OrderService.SnapshotLines | Backend/Services/Orderservice.cs:67-72 | one order line per cart line, with its product, quantity and the product's current price; the stored lines add up to the checkout sum |
| OrderService.CheckoutTotalIsLineSum | Backend/Services/Orderservice.cs:59-72 | a placed order's total equals Σ price × quantity of its own stored lines |
| OrderService.CartViewTotalIsCheckoutTotal | Backend/Services/Orderservice.cs:59 | what the cart view adds up to is what checkout charges |
| OrderService.CartOfDistinctProducts | Backend/Services/CartService.cs:55-67 | with one line per user and product, a user's cart names each product once |
| OrderService.QuantityOfDistinct | Backend/Services/Orderservice.cs:77-80 | in a cart naming each product once, a product's total quantity is its line's quantity |
| OrderService.QuantityOfAbsent | Backend/Services/Orderservice.cs:77-80 | a product no line names has total quantity zero |
| OrderService.CheckoutClearsOnlyCallersCart | Backend/Services/Orderservice.cs:82 | after checkout the caller's cart is empty, every other cart is as before, and a second checkout fails with "Cart is empty." |
| OrderService.CartOfExceptSame | Backend/Services/Orderservice.cs:82 | removing the user's lines leaves the user no lines |
| OrderService.CartOfExceptOther | Backend/Services/Orderservice.cs:82 | removing one user's lines leaves every other user's cart unchanged |
| OrderService.CartOfAppend | Backend/Services/CartService.cs:32-35 | the cart filter distributes over concatenation |
| OrderService.PlacedOrderKeepsPrices | Backend/Services/Orderservice.cs:67-72 | whatever later happens to the product rows, the order shows the prices paid at checkout |
| OrderService.CheckoutKeepsWf | Backend/Services/Orderservice.cs:75-84 | checkout keeps the identity discipline |
| OrderService.CartsExceptKeepsOrder | Backend/Services/Orderservice.cs:82 | removing a user's lines keeps the remaining line ids increasing and below the counter |
| OrderService.CheckoutKeepsCartUnique | Backend/Services/Orderservice.cs:82 | checkout keeps at most one line per user and product |
| OrderService.CartsExceptKeepsUnique | Backend/Services/Orderservice.cs:82 | removing a user's lines keeps the remaining lines unique per user and product |
| OrderService.OrdersOf | Backend/Services/Orderservice.cs:30-33 | every selected order is one of the table's orders and is placed by the user, and there are no more of them than the table holds |
| OrderService.OrdersOfComplete | Backend/Services/Orderservice.cs:31-33 | every order of the user is selected |
| OrderService.InsertByDate | Backend/Services/Orderservice.cs:34 | inserting into a newest-first list keeps it newest-first and adds exactly that order |
| OrderService.SortNewestFirst | Backend/Services/Orderservice.cs:34 | the result is newest-first and a permutation of the input |
| OrderService.SortKeepsMembers | Backend/Services/Orderservice.cs:34 | sorting keeps exactly the same orders |
| OrderService.GetMyOrders | Backend/Services/Orderservice.cs:27-40 | lists exactly the caller's orders: as many items as the caller has orders, each item the projection of one of the caller's orders (`OwnViews`), each of the caller's orders projected somewhere, dates never increasing |
| OrderService.ViewNewestFirst | Backend/Services/Orderservice.cs:34-37 | projecting a newest-first list keeps the dates never increasing |
| OrderService.ViewShowsOwn | Backend/Services/Orderservice.cs:30-37 | every item of the sorted, projected history is the projection of one of the user's orders |
| OrderService.ViewShowsAll | Backend/Services/Orderservice.cs:30-37 | every order of the user appears, projected, in the history |
| AuthService.UserIndex | Backend/Services/AuthService.cs:25 | finds the first account whose e-mail matches ignoring case, and none exactly when none matches |
| AuthService.UserExists | Backend/Services/AuthService.cs:72-79 | true exactly when some account's e-mail matches ignoring case |
| AuthService.Register | Backend/Services/AuthService.cs:46-70 | succeeds exactly when no account has the e-mail (ignoring case), appending one customer and answering with its new id; otherwise "User already exists." and no change |
| AuthService.NewCustomer | Backend/Services/AuthService.cs:56-62 | the account is built from the request's name and e-mail, the hash of the password and the customer role; it equals the profile's request-to-user mapping with the hash and role filled in |
| AuthService.Login | Backend/Services/AuthService.cs:22-44 | unknown e-mail: "User not found."; otherwise the first account whose e-mail matches ignoring case decides: if its hash accepts the password, success with a token minted for that account, else "Wrong password." |
| AuthService.LoginIffCredentials | Backend/Services/AuthService.cs:22-44 | with unique e-mails, log-in succeeds exactly when some account with that e-mail accepts the password |
| AuthService.RegisterKeepsEmailsUnique | Backend/Services/AuthService.cs:49-54 | registration keeps e-mails unique ignoring case |
| AuthService.RegisterKeepsWf | Backend/Services/AuthService.cs:64-65 | registration keeps the identity discipline |
| AuthService.RegisterTwiceFails | Backend/Services/AuthService.cs:49-54 | re-registering an e-mail, in any case, fails and changes nothing |
| AuthService.RegisterThenLogin | Backend/Services/AuthService.cs:22-70 | with a hasher that accepts its own hashes, a new account logs in with the same e-mail in any case and password, and the token is for that account |
| DbSeeder.AddUser | Backend/Data/DbSeeder.cs:12-19 | appends the account under the next identity, changes nothing else and keeps the identity discipline |
| DbSeeder.SeedAdmin | Backend/Data/DbSeeder.cs:10-20 | with an account holding exactly the guard e-mail nothing changes; otherwise one administrator (fixed name, e-mail, role, hash of the fixed password) is appended under the next user id and nothing else changes; keeps the identity discipline |
| DbSeeder.SeedAdminNeverSatisfiesGuard | Backend/Data/DbSeeder.cs:10-20 | seeding never creates the guard e-mail, so a second run adds a second administrator |
| DbSeeder.SeedTwiceDuplicatesAdmin | Backend/Data/DbSeeder.cs:10-20 | running the seeder twice without an "admin@admin.com" account leaves two accounts with the same e-mail |
| DbSeeder.SeedAdminIntendedIdempotent | Backend/Data/DbSeeder.cs:10-20 | with the corrected guard a second run changes nothing and the administrator exists |
| DbSeeder.SeedAdminIntendedKeepsEmailsUnique | Backend/Data/DbSeeder.cs:10-20 | with the corrected guard seeding keeps e-mails unique |
| DbSeeder.SeedAdminIntended | Backend/Data/DbSeeder.cs:10-20 | corrected guard: skip when the administrator's e-mail is registered ignoring case, else append the administrator; afterwards that e-mail is registered |
| DbSeeder.SeedIntended | Backend/Data/DbSeeder.cs:7-46 | corrected seeder: accounts change only by the administrator the corrected guard lets through (fixed fields, next id); categories change only as `DefaultsAdded` allows (each missing default added once, in list order); products, cart lines and orders are untouched; afterwards the administrator's e-mail is registered; keeps the identity discipline |
| DbSeeder.SeedIntendedIdempotent | Backend/Data/DbSeeder.cs:7-46 | the corrected seeder is idempotent |
| DbSeeder.AddMissing | Backend/Data/DbSeeder.cs:32-39 | keeps every existing category; each added category has the next id, a name missing from the table as it was, and comes from the seed list |
| DbSeeder.Missing | Backend/Data/DbSeeder.cs:32-39 | the seeds whose name the table lacks: every one of them and nothing else, no more than the seed list holds |
| DbSeeder.AddMissingAddsMissing | Backend/Data/DbSeeder.cs:32-39 | the rows the loop adds are exactly the missing seeds, once each and in list order |
| DbSeeder.MissingNamesDistinct | Backend/Data/DbSeeder.cs:32-39 | dropping seeds keeps their names distinct |
| DbSeeder.AddedNamesDistinct | Backend/Data/DbSeeder.cs:32-39 | rows added for seeds with distinct names have distinct names |
| DbSeeder.DefaultNamesDistinct | Backend/Data/DbSeeder.cs:24-30 | the four default categories have four different names |
| DbSeeder.AddMissingCovers | Backend/Data/DbSeeder.cs:32-39 | every seed is present afterwards, either by name beforehand or with its name and description |
| DbSeeder.AddMissingPresent | Backend/Data/DbSeeder.cs:24-39 | run against the table it starts from, the loop leaves every seed name present |
| DbSeeder.SeedCategories | Backend/Data/DbSeeder.cs:22-45 | `DefaultsAdded`: stored categories stay; the added rows are exactly the defaults whose name the table lacked exactly, once each, in list order, under consecutive fresh ids, with distinct names; the counter moves past them; afterwards every default name is present; only the category table changes; keeps the identity discipline |
| DbSeeder.Seed | Backend/Data/DbSeeder.cs:7-46 | accounts change only by the administrator the guard lets through; categories change only as `DefaultsAdded` allows (each missing default added once, in list order, under fresh ids); products, cart lines and orders are untouched; keeps the identity discipline |
| DbSeeder.SeedTwiceAddsNoCategories | Backend/Data/DbSeeder.cs:24-39 | a second run of the whole seeder adds no category and leaves the category counter unchanged |
| DbSeeder.AddMissingNothingMissing | Backend/Data/DbSeeder.cs:35 | when every name is present nothing is added |
| DbSeeder.SeedCategoriesIdempotent | Backend/Data/DbSeeder.cs:24-39 | the category step is idempotent |
| DbSeeder.AddMissingKeepsWf | Backend/Data/DbSeeder.cs:37 | adding categories under consecutive ids keeps the identity discipline |
| DbSeeder.SeedCategoriesIsCaseSensitive | Backend/Data/DbSeeder.cs:35 | names compare exactly: a table holding the defaults only in another case gets all four added |
| DbSeeder.AddMissingAllMissing | Backend/Data/DbSeeder.cs:35-37 | when no seed name is present, every seed is added |

## Left out

- Controllers, `Program.cs` and authorization attributes: routing, `[Authorize]` roles and
  model binding are outside the service layer. The caller's id is taken as a parameter; its
  parsing from the claims is not modelled.
- `ProductService.GetAllProducts`: not modelled. It is the list analogue of `GetProductById`
  over the same projection.
- Error-handling middleware: only its generic message is used. It is used for the one
  exception the modelled code can raise from stored data: checkout over a cart line whose
  product is gone. Exceptions from the database itself (a connection failure, a constraint
  violation on save) are not modelled.
- Database referential actions: `AppDbContext` is not part of this model, and the model
  assumes no foreign-key enforcement and no cascading deletes. A dangling reference is read
  through the null-safe projection defaults instead (a null string written as `""`).
- OrderService.Checkout: the branch for a cart line whose product is missing is a modelling
  assumption. Under Entity Framework's conventions the required relationship makes `Include`
  an inner join, which would drop such a line (or a cascade would already have removed it).
- Mapping.ProductToDto: with the category row missing, the source leaves `CategoryName` null
  (no `NullSubstitute` is configured); the model gives `""`, so it cannot tell a missing
  category from one whose name is empty.
- Mapping.CartLineToDto: with the product row missing, the source leaves `ProductName` and
  `ImageUrl` null; the model gives `""` for both.
- Mapping.OrderLineToDto: with the product row missing, the source leaves `ProductName` null;
  the model gives `""`.
- ProductService.DeleteProduct: removes only the product row. It does not model a cascade
  to the cart lines and order lines that name the product.
- CategoryService.DeleteCategory: removes only the category row. It does not model a
  cascade to the products in that category.
- `ServiceResponse<T>` is not part of this model. Its defaults are taken as `Success = true`
  and `Message = ""`, with `Data` left at its default (`None`).
- Password hashing and JWT minting are parameters: a `Hasher` of two function values and a
  `mint` function. The seeder calls BCrypt directly while registration and log-in go through
  the service; the model assumes both call sites use the same hasher, so the seeded
  administrator's hash is `h.hash` of the fixed password. Hashing is deterministic in the model, whereas BCrypt salts each hash; the
  model uses only `verify(p, hash(p))`.
- File upload: the file's contents, the `wwwroot/images` directory and the stream copy are I/O.
  The GUID is a parameter and the uploaded file is represented by its file name.
- `DateTime.UtcNow` is a parameter (`now`), and dates are integers.
- `FormattedPrice` and `FormattedTotalPrice` are left out: culture-specific currency
  formatting (`id-ID`).
- `ToLower` is ASCII-only. Culture-specific case mappings are not modelled.
- SQL collation is not modelled. The seeder's exact `==` comparisons are modelled as exact,
  although a case-insensitive database collation would make them ignore case.
- `OrderService.GetMyOrders`: equal order dates may come out in any order. The model picks a
  stable order, but its contract states only that dates never increase.
- Concurrency: each operation is atomic over one store value. Two requests racing on the same
  cart line or stock are not modelled.
- Identity overflow is not modelled: ids are unbounded integers.
- `decimal` precision is not modelled: prices are exact integers, so `decimal` overflow and
  rounding are not modelled.

## Findings

| source | as written | input that shows it | evidently intended | confidence | as-written member | corrected member |
|---|---|---|---|---|---|---|
| Backend/Data/DbSeeder.cs:10-20 | the guard looks for an account with e-mail "admin@admin.com" but inserts one with "Cingok@gmail.com" | a database with no "admin@admin.com" account, seeded on two start-ups: two administrator accounts with the same e-mail | skip when the administrator's own e-mail is already registered (compared the way registration compares e-mails), so seeding is idempotent and e-mails stay unique | not executed | DbSeeder.SeedTwiceDuplicatesAdmin | DbSeeder.SeedAdminIntendedIdempotent |

=== FILE: auth_service.dfy ===
/** Registration and log-in. Password hashing and token minting are
    parameters: the model fixes what the service does with them, not how
    they work. */
module AuthService {
  import opened Wrappers
  import opened Primitives
  import opened Models
  import opened Dtos
  import opened Envelope
  import opened Mapping

  const AlreadyExists: string := "User already exists."
  const Registered: string := "Registration successful."
  const UserNotFound: string := "User not found."
  const WrongPassword: string := "Wrong password."
  const LoggedIn: string := "Login successful."

  /** Role every self-registered account gets. */
  const CustomerRole: string := "Customer"

  /** The password hasher: `hash` turns a password into the stored hash,
      `verify` checks a password against a stored hash. */
  datatype Hasher = Hasher(hash: string -> string, verify: (string, string) -> bool)

  /** A hasher accepts every password against its own hash. */
  ghost predicate Sound(h: Hasher)
  {
    forall p: string :: h.verify(p, h.hash(p))
  }

  /** No two accounts share an e-mail address, ignoring case: the rule
      registration enforces. */
  predicate EmailsUnique(users: seq<User>)
  {
    forall i, j | 0 <= i < j < |users| :: !SameIgnoringCase(users[i].email, users[j].email)
  }

  /** Index of the first account whose e-mail matches `email` ignoring case. */
  function UserIndex(users: seq<User>, email: string): (r: Option<nat>)
    ensures r.None? <==> forall i | 0 <= i < |users| :: !SameIgnoringCase(users[i].email, email)
    ensures r.Some? ==> r.value < |users| && SameIgnoringCase(users[r.value].email, email)
    ensures r.Some? ==> forall i | 0 <= i < r.value :: !SameIgnoringCase(users[i].email, email)
  {
    if |users| == 0 then None
    else if SameIgnoringCase(users[0].email, email) then Some(0)
    else match UserIndex(users[1..], email)
      case None => None
      case Some(k) => Some(k + 1)
  }

  /** Whether some account already uses `email`, ignoring case. */
  function UserExists(users: seq<User>, email: string): (r: bool)
    ensures r <==> exists i | 0 <= i < |users| :: SameIgnoringCase(users[i].email, email)
  {
    UserIndex(users, email).Some?
  }

  /** The account registration stores for `req` under identity `id`, built
      from the request's name and e-mail, the hash of the password and the
      customer role; it equals the request-to-user mapping with the hash and
      role filled in. */
  function NewCustomer(req: RegisterRequest, id: int, h: Hasher): (u: User)
    ensures u == UserFromRegister(req, id).(passwordHash := h.hash(req.password))
    ensures u.role == CustomerRole
  {
    User(id, req.name, req.email, h.hash(req.password), CustomerRole)
  }

  /** Creates a customer account unless the e-mail is taken (ignoring
      case); on success the response carries the new account's id. */
  function Register(s: Store, req: RegisterRequest, h: Hasher): (r: Step<int>)
    ensures r.response.success <==>
      forall i | 0 <= i < |s.users| :: !SameIgnoringCase(s.users[i].email, req.email)
    ensures !r.response.success ==> r == Step(Fail(AlreadyExists), s)
    ensures r.response.success ==>
      && r.store == s.(users := s.users + [NewCustomer(req, s.nextUserId, h)], nextUserId := s.nextUserId + 1)
      && r.response == Ok(s.nextUserId, Registered)
  {
    if UserExists(s.users, req.email) then Step(Fail(AlreadyExists), s)
    else
      var u := NewCustomer(req, s.nextUserId, h);
      Step(Ok(u.id, Registered), s.(users := s.users + [u], nextUserId := s.nextUserId + 1))
  }

  /** Looks the account up by e-mail ignoring case (the first match) and
      checks the password against its hash; success mints a token for that
      account. */
  function Login(s: Store, req: LoginRequest, h: Hasher, mint: User -> string): (r: Response<string>)
    ensures !UserExists(s.users, req.email) ==> r == Fail(UserNotFound)
    ensures r.success ==>
      exists i | 0 <= i < |s.users| ::
        && SameIgnoringCase(s.users[i].email, req.email)
        && h.verify(req.password, s.users[i].passwordHash)
        && r == Ok(mint(s.users[i]), LoggedIn)
    ensures UserIndex(s.users, req.email).Some? ==>
      var u := s.users[UserIndex(s.users, req.email).value];
      && (h.verify(req.password, u.passwordHash) ==> r == Ok(mint(u), LoggedIn))
      && (!h.verify(req.password, u.passwordHash) ==> r == Fail(WrongPassword))
    ensures !r.success ==> r.data.None? && (r.message == UserNotFound || r.message == WrongPassword)
  {
    match UserIndex(s.users, req.email)
    case None => Fail(UserNotFound)
    case Some(i) =>
      if !h.verify(req.password, s.users[i].passwordHash) then Fail(WrongPassword)
      else Ok(mint(s.users[i]), LoggedIn)
  }

  /** With unique e-mails, log-in succeeds exactly when some account with
      that e-mail accepts the password. */
  lemma LoginIffCredentials(s: Store, req: LoginRequest, h: Hasher, mint: User -> string)
    requires EmailsUnique(s.users)
    ensures Login(s, req, h, mint).success <==>
      exists i | 0 <= i < |s.users| ::
        SameIgnoringCase(s.users[i].email, req.email) && h.verify(req.password, s.users[i].passwordHash)
  {
    var r := Login(s, req, h, mint);
    if i :| 0 <= i < |s.users| && SameIgnoringCase(s.users[i].email, req.email)
                               && h.verify(req.password, s.users[i].passwordHash) {
      var k := UserIndex(s.users, req.email).value;
      assert SameIgnoringCase(s.users[k].email, s.users[i].email);
      assert k == i;
    }
  }

  /** Registration keeps e-mails unique. */
  lemma RegisterKeepsEmailsUnique(s: Store, req: RegisterRequest, h: Hasher)
    requires EmailsUnique(s.users)
    ensures EmailsUnique(Register(s, req, h).store.users)
  {
    var users := Register(s, req, h).store.users;
    if Register(s, req, h).response.success {
      forall i, j | 0 <= i < j < |users|
        ensures !SameIgnoringCase(users[i].email, users[j].email)
      {
        if j == |s.users| {
          assert users[j].email == req.email;
          assert users[i] == s.users[i];
        } else {
          assert users[i] == s.users[i] && users[j] == s.users[j];
        }
      }
    }
  }

  /** Registration keeps the identity discipline. */
  lemma RegisterKeepsWf(s: Store, req: RegisterRequest, h: Hasher)
    requires Wf(s)
    ensures Wf(Register(s, req, h).store)
  {
    if Register(s, req, h).response.success {
      AppendUserWf(s, NewCustomer(req, s.nextUserId, h));
    }
  }

  /** Once an e-mail is registered, registering it again in any case fails
      and changes nothing. */
  lemma RegisterTwiceFails(s: Store, req: RegisterRequest, again: RegisterRequest, h: Hasher)
    requires Register(s, req, h).response.success
    requires SameIgnoringCase(again.email, req.email)
    ensures var s1 := Register(s, req, h).store;
      Register(s1, again, h) == Step(Fail(AlreadyExists), s1)
  {
    var s1 := Register(s, req, h).store;
    assert s1.users[|s.users|].email == req.email;
    assert SameIgnoringCase(s1.users[|s.users|].email, again.email);
  }

  /** With a sound hasher, a fresh registration can log straight in with
      the same e-mail (in any case) and password, and the token is minted
      for the new account. */
  lemma RegisterThenLogin(s: Store, req: RegisterRequest, email: string, h: Hasher, mint: User -> string)
    requires Sound(h)
    requires Register(s, req, h).response.success
    requires SameIgnoringCase(email, req.email)
    ensures Login(Register(s, req, h).store, LoginRequest(email, req.password), h, mint)
      == Ok(mint(NewCustomer(req, s.nextUserId, h)), LoggedIn)
  {
    var s1 := Register(s, req, h).store;
    var u := NewCustomer(req, s.nextUserId, h);
    assert s1.users[|s.users|] == u;
    assert SameIgnoringCase(s1.users[|s.users|].email, email);
    var k := UserIndex(s1.users, email).value;
    assert forall j | 0 <= j < |s.users| :: s1.users[j] == s.users[j];
    assert k == |s.users|;
    assert h.verify(req.password, h.hash(req.password));
  }
}

=== FILE: cart_service.dfy ===
/** The per-user shopping cart: listing, merge-or-insert and removal by
    the owner. */
module CartService {
  import opened Wrappers
  import opened Primitives
  import opened Models
  import opened Dtos
  import opened Envelope
  import opened Mapping

  const ProductNotFound: string := "Product not found."
  const ItemNotFound: string := "Item not found."
  const ItemRemoved: string := "Item removed."

  /** At most one cart line per (user, product) pair. */
  predicate CartUnique(carts: seq<CartLine>)
  {
    forall i, j | 0 <= i < j < |carts| ::
      carts[i].userId != carts[j].userId || carts[i].productId != carts[j].productId
  }

  /** The first line of `userId` for `productId`, as `FirstOrDefaultAsync`. */
  function LineIndex(carts: seq<CartLine>, userId: int, productId: int): (r: Option<nat>)
    ensures r.None? <==> forall i | 0 <= i < |carts| ::
      carts[i].userId != userId || carts[i].productId != productId
    ensures r.Some? ==> (r.value < |carts|
      && carts[r.value].userId == userId && carts[r.value].productId == productId)
    ensures r.Some? ==> forall i | 0 <= i < r.value ::
      carts[i].userId != userId || carts[i].productId != productId
  {
    if |carts| == 0 then None
    else if carts[0].userId == userId && carts[0].productId == productId then Some(0)
    else match LineIndex(carts[1..], userId, productId)
      case None => None
      case Some(k) => Some(k + 1)
  }

  /** The first line with id `cartId` owned by `userId`. */
  function OwnedLineIndex(carts: seq<CartLine>, userId: int, cartId: int): (r: Option<nat>)
    ensures r.None? <==> forall i | 0 <= i < |carts| ::
      carts[i].id != cartId || carts[i].userId != userId
    ensures r.Some? ==> (r.value < |carts|
      && carts[r.value].id == cartId && carts[r.value].userId == userId)
    ensures r.Some? ==> forall i | 0 <= i < r.value ::
      carts[i].id != cartId || carts[i].userId != userId
  {
    if |carts| == 0 then None
    else if carts[0].id == cartId && carts[0].userId == userId then Some(0)
    else match OwnedLineIndex(carts[1..], userId, cartId)
      case None => None
      case Some(k) => Some(k + 1)
  }

  /** The caller's cart lines, in table order, each with the live
      product's name, image and price and the line's own id, product and
      quantity; a line whose product row is missing shows empty product
      fields and a zero price. */
  function GetMyCart(s: Store, userId: int): (r: Response<seq<CartItemDto>>)
    ensures r.success && r.data.Some?
    ensures var lines := CartOf(s.carts, userId);
      && |r.data.value| == |lines|
      && forall i | 0 <= i < |lines| ::
        && r.data.value[i].id == lines[i].id
        && r.data.value[i].productId == lines[i].productId
        && r.data.value[i].quantity == lines[i].quantity
        && (lines[i].productId in s.products ==>
              && r.data.value[i].productName == s.products[lines[i].productId].name
              && r.data.value[i].imageUrl == s.products[lines[i].productId].imageUrl
              && r.data.value[i].price == s.products[lines[i].productId].price)
        && (lines[i].productId !in s.products ==>
              r.data.value[i].productName == "" && r.data.value[i].imageUrl == "" && r.data.value[i].price == 0)
  {
    Ok(CartLinesToDtos(CartOf(s.carts, userId), s.products), DefaultMessage)
  }

  /** Unknown product: fails, no cart changes. If the caller already has a
      line for the product its quantity grows by the requested amount (no
      sign check; 32-bit wrap-around); otherwise one line is appended for
      the caller. Either way the answer is the caller's refreshed cart. */
  function AddToCart(s: Store, userId: int, req: AddToCartRequest): (r: Step<seq<CartItemDto>>)
    ensures req.productId !in s.products ==> r == Step(Fail(ProductNotFound), s)
    ensures req.productId in s.products && LineIndex(s.carts, userId, req.productId).Some? ==>
      var k := LineIndex(s.carts, userId, req.productId).value;
      r.store == s.(carts := s.carts[k := s.carts[k].(quantity := Wrap32(s.carts[k].quantity + req.quantity))])
    ensures req.productId in s.products && LineIndex(s.carts, userId, req.productId).None? ==>
      r.store == s.(carts := s.carts + [CartLine(s.nextCartId, userId, req.productId, req.quantity)],
                    nextCartId := s.nextCartId + 1)
    ensures req.productId in s.products ==> r.response == GetMyCart(r.store, userId)
  {
    if req.productId !in s.products then Step(Fail(ProductNotFound), s)
    else
      var s' := match LineIndex(s.carts, userId, req.productId)
        case Some(k) => s.(carts := s.carts[k := s.carts[k].(quantity := Wrap32(s.carts[k].quantity + req.quantity))])
        case None => s.(carts := s.carts + [CartLineFromRequest(req, s.nextCartId, userId)], nextCartId := s.nextCartId + 1);
      Step(GetMyCart(s', userId), s')
  }

  /** Adding to the cart keeps at most one line per (user, product). */
  lemma AddToCartKeepsUnique(s: Store, userId: int, req: AddToCartRequest)
    requires CartUnique(s.carts)
    ensures CartUnique(AddToCart(s, userId, req).store.carts)
  {
    var c := AddToCart(s, userId, req).store.carts;
    if req.productId in s.products {
      match LineIndex(s.carts, userId, req.productId)
      case Some(k) =>
        assert forall i | 0 <= i < |s.carts| ::
          c[i].userId == s.carts[i].userId && c[i].productId == s.carts[i].productId;
      case None =>
        assert forall i | 0 <= i < |s.carts| :: c[i] == s.carts[i];
    }
  }

  /** Adding to the cart keeps the identity discipline. */
  lemma AddToCartKeepsWf(s: Store, userId: int, req: AddToCartRequest)
    requires Wf(s)
    ensures Wf(AddToCart(s, userId, req).store)
  {
    var s' := AddToCart(s, userId, req).store;
    if req.productId in s.products {
      match LineIndex(s.carts, userId, req.productId)
      case Some(k) =>
        assert forall i | 0 <= i < |s.carts| :: s'.carts[i].id == s.carts[i].id;
        assert CartIdsOk(s');
      case None =>
        AppendCartWf(s, CartLineFromRequest(req, s.nextCartId, userId));
    }
  }

  /** Succeeds only on a line with that id owned by the caller, removing
      that line alone and answering `true`; otherwise fails with
      "Item not found." and changes nothing. */
  function RemoveFromCart(s: Store, userId: int, cartId: int): (r: Step<bool>)
    ensures OwnedLineIndex(s.carts, userId, cartId).None? ==> r == Step(Fail(ItemNotFound), s)
    ensures OwnedLineIndex(s.carts, userId, cartId).Some? ==>
      var k := OwnedLineIndex(s.carts, userId, cartId).value;
      && r.response == Response(true, ItemRemoved, Some(true))
      && r.store == s.(carts := RemoveAt(s.carts, k))
  {
    match OwnedLineIndex(s.carts, userId, cartId)
    case None => Step(Fail(ItemNotFound), s)
    case Some(k) => Step(Response(true, ItemRemoved, Some(true)), s.(carts := RemoveAt(s.carts, k)))
  }

  /** Removing a line keeps at most one line per (user, product). */
  lemma RemoveFromCartKeepsUnique(s: Store, userId: int, cartId: int)
    requires CartUnique(s.carts)
    ensures CartUnique(RemoveFromCart(s, userId, cartId).store.carts)
  {
    if OwnedLineIndex(s.carts, userId, cartId).Some? {
      var k := OwnedLineIndex(s.carts, userId, cartId).value;
      var c := RemoveAt(s.carts, k);
      forall i, j | 0 <= i < j < |c|
        ensures c[i].userId != c[j].userId || c[i].productId != c[j].productId
      {
        var i' := if i < k then i else i + 1;
        var j' := if j < k then j else j + 1;
        assert c[i] == s.carts[i'] && c[j] == s.carts[j'];
      }
    }
  }

  /** Removing a line keeps the identity discipline. */
  lemma RemoveFromCartKeepsWf(s: Store, userId: int, cartId: int)
    requires Wf(s)
    ensures Wf(RemoveFromCart(s, userId, cartId).store)
  {
    var s' := RemoveFromCart(s, userId, cartId).store;
    if OwnedLineIndex(s.carts, userId, cartId).Some? {
      var k := OwnedLineIndex(s.carts, userId, cartId).value;
      var c := RemoveAt(s.carts, k);
      forall i, j | 0 <= i < j < |c|
        ensures c[i].id < c[j].id
      {
        var i' := if i < k then i else i + 1;
        var j' := if j < k then j else j + 1;
        assert c[i] == s.carts[i'] && c[j] == s.carts[j'];
      }
      assert forall i | 0 <= i < |c| :: c[i] in s.carts;
      assert CartIdsOk(s');
    }
  }

  // ---------------------------------------------------------------------
  // Properties relating several operations.
  // ---------------------------------------------------------------------

  /** Adding a product the caller does not have yet, twice, leaves one new
      line holding the summed quantity: a repeat add never inserts. */
  lemma {:induction false} AddTwiceMerges(s: Store, userId: int, productId: int, a: Int32, b: Int32)
    requires productId in s.products
    requires LineIndex(s.carts, userId, productId).None?
    ensures var s1 := AddToCart(s, userId, AddToCartRequest(productId, a)).store;
      var s2 := AddToCart(s1, userId, AddToCartRequest(productId, b)).store;
      && |s2.carts| == |s.carts| + 1
      && s2.carts[..|s.carts|] == s.carts
      && s2.carts[|s.carts|] == CartLine(s.nextCartId, userId, productId, Wrap32(a + b))
  {
    var s1 := AddToCart(s, userId, AddToCartRequest(productId, a)).store;
    var n := |s.carts|;
    assert s1.carts == s.carts + [CartLine(s.nextCartId, userId, productId, a)];
    assert LineIndex(s1.carts, userId, productId) == Some(n) by {
      assert forall i | 0 <= i < n :: s1.carts[i] == s.carts[i];
    }
    var s2 := AddToCart(s1, userId, AddToCartRequest(productId, b)).store;
    assert s2.carts == s1.carts[n := s1.carts[n].(quantity := Wrap32(a + b))];
    assert s2.carts[..n] == s.carts;
  }

  /** A product added without a quantity counts once: it opens a line of
      one for the caller, or adds exactly one to the caller's line for it,
      and no other line changes. */
  lemma AddOneToCart(s: Store, userId: int, productId: int)
    requires productId in s.products
    ensures var c := AddToCart(s, userId, AddOne(productId)).store.carts;
      match LineIndex(s.carts, userId, productId)
      case None => c == s.carts + [CartLine(s.nextCartId, userId, productId, 1)]
      case Some(k) =>
        && |c| == |s.carts|
        && c[k] == s.carts[k].(quantity := Wrap32(s.carts[k].quantity + 1))
        && forall i | 0 <= i < |c| && i != k :: c[i] == s.carts[i]
  {
  }

  /** A caller can never remove another user's line: with unique line ids,
      a line owned by someone else makes the removal fail and stays. */
  lemma RemoveOthersLineFails(s: Store, userId: int, l: CartLine)
    requires Wf(s)
    requires l in s.carts && l.userId != userId
    ensures !RemoveFromCart(s, userId, l.id).response.success
    ensures RemoveFromCart(s, userId, l.id).store == s
    ensures l in RemoveFromCart(s, userId, l.id).store.carts
  {
    var k :| 0 <= k < |s.carts| && s.carts[k] == l;
    forall i | 0 <= i < |s.carts|
      ensures s.carts[i].id != l.id || s.carts[i].userId != userId
    {
      if i < k {
        assert s.carts[i].id < s.carts[k].id;
      } else if k < i {
        assert s.carts[k].id < s.carts[i].id;
      }
    }
  }

  /** After a successful removal no line with that id is left. */
  lemma RemoveIsFinal(s: Store, userId: int, cartId: int)
    requires Wf(s)
    requires RemoveFromCart(s, userId, cartId).response.success
    ensures forall l | l in RemoveFromCart(s, userId, cartId).store.carts :: l.id != cartId
  {
    var k := OwnedLineIndex(s.carts, userId, cartId).value;
    var r := RemoveAt(s.carts, k);
    forall i | 0 <= i < |r|
      ensures r[i].id != cartId
    {
      if i < k {
        assert s.carts[i].id < s.carts[k].id;
      } else {
        assert r[i] == s.carts[i + 1];
        assert s.carts[k].id < s.carts[i + 1].id;
      }
    }
  }
}

=== FILE: category_service.dfy ===
/** Category CRUD. */
module CategoryService {
  import opened Wrappers
  import opened Models
  import opened Dtos
  import opened Envelope
  import opened Mapping

  const NotFound: string := "Category not found."

  /** True when some category has that id. */
  predicate HasCategory(s: Store, id: int)
  {
    exists i | 0 <= i < |s.categories| :: s.categories[i].id == id
  }

  /** All categories, one DTO per row in table order. */
  function GetAllCategories(s: Store): (r: Response<seq<CategoryDto>>)
    ensures r.success && r.data.Some? && |r.data.value| == |s.categories|
    ensures forall i | 0 <= i < |s.categories| ::
      r.data.value[i] == CategoryDto(s.categories[i].id, s.categories[i].name, s.categories[i].description)
  {
    Ok(seq(|s.categories|, i requires 0 <= i < |s.categories| => CategoryToDto(s.categories[i])), DefaultMessage)
  }

  /** Fails with "Category not found." exactly when no category has the id;
      otherwise returns that category. */
  function GetCategoryById(s: Store, id: int): (r: Response<CategoryDto>)
    ensures r.success <==> HasCategory(s, id)
    ensures !r.success ==> r.message == NotFound && r.data.None?
    ensures r.success ==> (r.data.Some? && r.data.value.id == id
      && exists c | c in s.categories :: c.id == id && r.data.value == CategoryToDto(c))
  {
    match FindCategory(s.categories, id)
    case None => Fail(NotFound)
    case Some(c) => Ok(CategoryToDto(c), DefaultMessage)
  }

  /** Inserts one category with the next identity, then reads it back. */
  function AddCategory(s: Store, req: CreateCategoryRequest): (r: Step<CategoryDto>)
    ensures |r.store.categories| == |s.categories| + 1
    ensures r.store.categories[..|s.categories|] == s.categories
    ensures var c := r.store.categories[|s.categories|];
      c.id == s.nextCategoryId && c.name == req.name && c.description == req.description
    ensures r.store == s.(categories := r.store.categories, nextCategoryId := s.nextCategoryId + 1)
    ensures Wf(s) ==> (r.response.success
      && r.response.data == Some(CategoryDto(s.nextCategoryId, req.name, req.description)))
    ensures Wf(s) ==> Wf(r.store)
  {
    var c := CategoryFromRequest(req, s.nextCategoryId);
    var s' := s.(categories := s.categories + [c], nextCategoryId := s.nextCategoryId + 1);
    assert s'.categories[|s.categories|] == c;
    assert Wf(s) ==> Wf(s') && GetCategoryById(s', c.id).data == Some(CategoryToDto(c)) by {
      if Wf(s) {
        AppendCategoryWf(s, c);
        FindCategoryUnique(s', c.id, c);
      }
    }
    Step(GetCategoryById(s', c.id), s')
  }

  /** Unknown id: fails, store unchanged. Otherwise name and description
      take the request's values; id, position and every other row stay. */
  function UpdateCategory(s: Store, id: int, req: CreateCategoryRequest): (r: Step<CategoryDto>)
    ensures !HasCategory(s, id) ==> r == Step(Fail(NotFound), s)
    ensures HasCategory(s, id) ==>
      && r.response.success
      && r.response.data == Some(CategoryDto(id, req.name, req.description))
      && r.store == s.(categories := r.store.categories)
      && |r.store.categories| == |s.categories|
      && (exists k | 0 <= k < |s.categories| :: s.categories[k].id == id
           && r.store.categories == s.categories[k := Category(id, req.name, req.description)])
    ensures Wf(s) ==> Wf(r.store)
  {
    match CategoryIndex(s.categories, id)
    case None => Step(Fail(NotFound), s)
    case Some(k) =>
      var c := s.categories[k].(name := req.name, description := req.description);
      var s' := s.(categories := s.categories[k := c]);
      assert s'.categories[k] == c;
      Step(GetCategoryById(s', id), s')
  }

  /** Unknown id: fails, store unchanged. Otherwise removes that row only
      and answers `true`. */
  function DeleteCategory(s: Store, id: int): (r: Step<bool>)
    ensures !HasCategory(s, id) ==> r == Step(Fail(NotFound), s)
    ensures HasCategory(s, id) ==>
      && r.response == Response(true, DefaultMessage, Some(true))
      && r.store == s.(categories := r.store.categories)
      && (exists k | 0 <= k < |s.categories| :: s.categories[k].id == id
           && r.store.categories == RemoveAt(s.categories, k))
    ensures Wf(s) ==> Wf(r.store)
  {
    match CategoryIndex(s.categories, id)
    case None => Step(Fail(NotFound), s)
    case Some(k) =>
      var s' := s.(categories := RemoveAt(s.categories, k));
      assert Wf(s) ==> Wf(s') by {
        if Wf(s) {
          RemoveAtKeepsIds(s.categories, k);
        }
      }
      Step(Response(true, DefaultMessage, Some(true)), s')
  }

  lemma RemoveAtKeepsIds(cs: seq<Category>, k: nat)
    requires k < |cs|
    requires forall i, j | 0 <= i < j < |cs| :: cs[i].id < cs[j].id
    ensures forall i, j | 0 <= i < j < |RemoveAt(cs, k)| :: RemoveAt(cs, k)[i].id < RemoveAt(cs, k)[j].id
  {
    var r := RemoveAt(cs, k);
    forall i, j | 0 <= i < j < |r|
      ensures r[i].id < r[j].id
    {
      var i' := if i < k then i else i + 1;
      var j' := if j < k then j else j + 1;
      assert r[i] == cs[i'] && r[j] == cs[j'];
    }
  }

  /** An added category is listed last, after the rows listed before,
      with the next identity and the request's name and description. */
  lemma AddThenListed(s: Store, req: CreateCategoryRequest)
    ensures GetAllCategories(AddCategory(s, req).store).data.value
      == GetAllCategories(s).data.value + [CategoryDto(s.nextCategoryId, req.name, req.description)]
  {
    var before := GetAllCategories(s).data.value;
    var after := GetAllCategories(AddCategory(s, req).store).data.value;
    var cs := AddCategory(s, req).store.categories;
    assert forall i | 0 <= i < |s.categories| :: cs[i] == s.categories[i];
    assert after == before + [CategoryDto(s.nextCategoryId, req.name, req.description)];
  }

  /** Once deleted, a category can no longer be read. */
  lemma {:induction false} DeleteThenGetFails(s: Store, id: int)
    requires Wf(s)
    requires HasCategory(s, id)
    ensures !GetCategoryById(DeleteCategory(s, id).store, id).success
    ensures DeleteCategory(s, id).response.success
  {
    var k := CategoryIndex(s.categories, id).value;
    var r := RemoveAt(s.categories, k);
    assert DeleteCategory(s, id).store.categories == r;
    forall i | 0 <= i < |r|
      ensures r[i].id != id
    {
      if i < k {
        assert r[i] == s.categories[i];
      } else {
        assert r[i] == s.categories[i + 1];
        assert s.categories[k].id < s.categories[i + 1].id;
      }
    }
  }

  /** An added category can be read back under its new id. */
  lemma AddThenGet(s: Store, req: CreateCategoryRequest)
    requires Wf(s)
    ensures var s' := AddCategory(s, req).store;
      GetCategoryById(s', s.nextCategoryId).data == Some(CategoryDto(s.nextCategoryId, req.name, req.description))
  {
  }
}

=== FILE: db_seeder.dfy ===
/** Start-up seeding: one administrator account and four default
    categories. Both checks compare strings exactly, unlike the services,
    which compare e-mails and category names ignoring case. */
module DbSeeder {
  import opened Primitives
  import opened Models
  import AuthService

  /** The e-mail whose presence is taken to mean "the administrator exists". */
  const AdminGuardEmail: string := "admin@admin.com"

  const AdminName: string := "Cingok"
  const AdminEmail: string := "Cingok@gmail.com"
  const AdminPassword: string := "adminpassword123"
  const AdminRole: string := "Admin"

  /** A default category: name and description; the id comes from the
      category counter when it is stored. */
  datatype CategorySeed = CategorySeed(name: string, description: string)

  const DefaultCategories: seq<CategorySeed> := [
    CategorySeed("Headphones", "Devices for listening to audio"),
    CategorySeed("Speakers", "Devices used for audio output"),
    CategorySeed("Smart Phones", "Mobile phones with computing capabilities"),
    CategorySeed("Computers", "Electronic devices for processing data")
  ]

  /** Some account has exactly this e-mail. */
  predicate HasEmail(users: seq<User>, email: string)
  {
    exists i | 0 <= i < |users| :: users[i].email == email
  }

  /** Some category has exactly this name. */
  predicate HasName(cs: seq<Category>, name: string)
  {
    exists i | 0 <= i < |cs| :: cs[i].name == name
  }

  /** Whether `u` is the administrator account the seeder stores under
      identity `id`: the fixed name, e-mail and role, and the hash of the
      fixed password. */
  predicate IsAdmin(u: User, id: int, h: AuthService.Hasher)
  {
    && u.id == id && u.name == AdminName && u.email == AdminEmail
    && u.passwordHash == h.hash(AdminPassword) && u.role == AdminRole
  }

  /** The administrator account the seeder stores under identity `id`. */
  function Admin(id: int, h: AuthService.Hasher): User
  {
    User(id, AdminName, AdminEmail, h.hash(AdminPassword), AdminRole)
  }

  /** Stores `u` under the next user identity. */
  function AddUser(s: Store, u: User): (r: Store)
    requires u.id == s.nextUserId
    ensures r.users == s.users + [u] && r.nextUserId == s.nextUserId + 1
    ensures r == s.(users := r.users, nextUserId := r.nextUserId)
    ensures Wf(s) ==> Wf(r)
  {
    var r := s.(users := s.users + [u], nextUserId := s.nextUserId + 1);
    assert Wf(s) ==> Wf(r) by {
      if Wf(s) { AppendUserWf(s, u); }
    }
    r
  }

  // ---------------------------------------------------------------------
  // Administrator account, as written.
  // ---------------------------------------------------------------------

  /** Adds the administrator under the next user identity unless an
      account has exactly the guard e-mail; nothing else changes. The guard
      e-mail is not the e-mail inserted. */
  function SeedAdmin(s: Store, h: AuthService.Hasher): (r: Store)
    ensures HasEmail(s.users, AdminGuardEmail) ==> r == s
    ensures !HasEmail(s.users, AdminGuardEmail) ==>
      && r == s.(users := r.users, nextUserId := s.nextUserId + 1)
      && |r.users| == |s.users| + 1 && r.users[..|s.users|] == s.users
      && IsAdmin(r.users[|s.users|], s.nextUserId, h)
    ensures Wf(s) ==> Wf(r)
  {
    if HasEmail(s.users, AdminGuardEmail) then s
    else AddUser(s, Admin(s.nextUserId, h))
  }

  /** Storing the administrator never stores the guard e-mail, so without an
      `admin@admin.com` account every run adds one more administrator. */
  lemma SeedAdminNeverSatisfiesGuard(s: Store, h: AuthService.Hasher)
    requires !HasEmail(s.users, AdminGuardEmail)
    ensures !HasEmail(SeedAdmin(s, h).users, AdminGuardEmail)
    ensures |SeedAdmin(SeedAdmin(s, h), h).users| == |s.users| + 2
  {
    var s1 := SeedAdmin(s, h);
    assert AdminEmail != AdminGuardEmail by {
      assert AdminEmail[0] != AdminGuardEmail[0];
    }
    forall i | 0 <= i < |s1.users|
      ensures s1.users[i].email != AdminGuardEmail
    {
      if i < |s.users| {
        assert s1.users[i] == s.users[i];
      }
    }
  }

  /** Seeding twice, starting with no `admin@admin.com` account, leaves two
      accounts with the same e-mail: the uniqueness registration relies on
      is broken. */
  lemma SeedTwiceDuplicatesAdmin(s: Store, h: AuthService.Hasher)
    requires !HasEmail(s.users, AdminGuardEmail)
    ensures !AuthService.EmailsUnique(Seed(Seed(s, h), h).users)
  {
    SeedAdminNeverSatisfiesGuard(s, h);
    var s2 := Seed(s, h);
    var users := Seed(s2, h).users;
    var a, b := |s.users|, |s.users| + 1;
    assert users[a] == s2.users[a];
    assert users[a].email == AdminEmail && users[b].email == AdminEmail;
    assert SameIgnoringCase(users[a].email, users[b].email);
  }

  // ---------------------------------------------------------------------
  // Administrator account, corrected.
  // ---------------------------------------------------------------------

  /** The guard the code evidently intends: skip when an account already
      has the administrator's e-mail, compared the way registration
      compares e-mails. */
  function SeedAdminIntended(s: Store, h: AuthService.Hasher): (r: Store)
    ensures AuthService.UserExists(s.users, AdminEmail) ==> r == s
    ensures !AuthService.UserExists(s.users, AdminEmail) ==>
      && r == s.(users := r.users, nextUserId := s.nextUserId + 1)
      && |r.users| == |s.users| + 1 && r.users[..|s.users|] == s.users
      && IsAdmin(r.users[|s.users|], s.nextUserId, h)
    ensures AuthService.UserExists(r.users, AdminEmail)
    ensures Wf(s) ==> Wf(r)
  {
    if AuthService.UserExists(s.users, AdminEmail) then s
    else
      var r := AddUser(s, Admin(s.nextUserId, h));
      assert SameIgnoringCase(r.users[|s.users|].email, AdminEmail);
      r
  }

  /** The corrected guard makes the administrator seeding idempotent and
      ensures an administrator account exists afterwards. */
  lemma SeedAdminIntendedIdempotent(s: Store, h: AuthService.Hasher)
    ensures SeedAdminIntended(SeedAdminIntended(s, h), h) == SeedAdminIntended(s, h)
    ensures AuthService.UserExists(SeedAdminIntended(s, h).users, AdminEmail)
  {
    var s1 := SeedAdminIntended(s, h);
    if !AuthService.UserExists(s.users, AdminEmail) {
      assert s1.users[|s.users|].email == AdminEmail;
    }
  }

  /** The corrected guard keeps e-mails unique. */
  lemma SeedAdminIntendedKeepsEmailsUnique(s: Store, h: AuthService.Hasher)
    requires AuthService.EmailsUnique(s.users)
    ensures AuthService.EmailsUnique(SeedAdminIntended(s, h).users)
  {
    var users := SeedAdminIntended(s, h).users;
    if !AuthService.UserExists(s.users, AdminEmail) {
      forall i, j | 0 <= i < j < |users|
        ensures !SameIgnoringCase(users[i].email, users[j].email)
      {
        assert users[i] == s.users[i];
        if j < |s.users| {
          assert users[j] == s.users[j];
        }
      }
    }
  }

  /** Seeding with the corrected guard: accounts change only by the
      administrator that guard lets through, categories only as
      `DefaultsAdded` allows, and nothing else changes; afterwards the
      administrator's e-mail is registered. */
  function SeedIntended(s: Store, h: AuthService.Hasher): (r: Store)
    ensures AuthService.UserExists(s.users, AdminEmail) ==> r.users == s.users && r.nextUserId == s.nextUserId
    ensures !AuthService.UserExists(s.users, AdminEmail) ==>
      && |r.users| == |s.users| + 1 && r.users[..|s.users|] == s.users
      && IsAdmin(r.users[|s.users|], s.nextUserId, h)
      && r.nextUserId == s.nextUserId + 1
    ensures r == s.(users := r.users, nextUserId := r.nextUserId,
                    categories := r.categories, nextCategoryId := r.nextCategoryId)
    ensures DefaultsAdded(s.categories, s.nextCategoryId, r.categories, r.nextCategoryId)
    ensures AuthService.UserExists(r.users, AdminEmail)
    ensures Wf(s) ==> Wf(r)
  {
    SeedCategories(SeedAdminIntended(s, h))
  }

  /** Seeding with the corrected guard is idempotent. */
  lemma SeedIntendedIdempotent(s: Store, h: AuthService.Hasher)
    ensures SeedIntended(SeedIntended(s, h), h) == SeedIntended(s, h)
  {
    var s1 := SeedAdminIntended(s, h);
    var s2 := SeedCategories(s1);
    SeedAdminIntendedIdempotent(s, h);
    assert SeedAdminIntended(s2, h) == s2;
    SeedCategoriesIdempotent(s1);
  }

  // ---------------------------------------------------------------------
  // Default categories.
  // ---------------------------------------------------------------------

  /** The seeds whose name no category of `existing` has exactly, in list
      order: what the category loop should add, stated without the store. */
  function Missing(seeds: seq<CategorySeed>, existing: seq<Category>): (r: seq<CategorySeed>)
    ensures |r| <= |seeds|
    ensures forall d | d in r :: d in seeds && !HasName(existing, d.name)
    ensures forall d | d in seeds && !HasName(existing, d.name) :: d in r
    decreases |seeds|
  {
    if |seeds| == 0 then []
    else
      var r := (if HasName(existing, seeds[0].name) then [] else [seeds[0]]) + Missing(seeds[1..], existing);
      assert forall d | d in seeds :: d == seeds[0] || d in seeds[1..];
      r
  }

  /** No two seeds share a name. */
  predicate NamesDistinct(seeds: seq<CategorySeed>)
  {
    forall i, j | 0 <= i < j < |seeds| :: seeds[i].name != seeds[j].name
  }

  /** Dropping seeds keeps their names distinct. */
  lemma {:induction false} MissingNamesDistinct(seeds: seq<CategorySeed>, existing: seq<Category>)
    requires NamesDistinct(seeds)
    ensures NamesDistinct(Missing(seeds, existing))
    decreases |seeds|
  {
    if |seeds| > 0 {
      var tail := Missing(seeds[1..], existing);
      assert NamesDistinct(seeds[1..]) by {
        forall i, j | 0 <= i < j < |seeds[1..]|
          ensures seeds[1..][i].name != seeds[1..][j].name
        {
          assert seeds[1..][i] == seeds[i + 1] && seeds[1..][j] == seeds[j + 1];
        }
      }
      MissingNamesDistinct(seeds[1..], existing);
      forall d | d in tail
        ensures d.name != seeds[0].name
      {
        var k :| 0 <= k < |seeds[1..]| && seeds[1..][k] == d;
        assert seeds[k + 1] == d;
      }
    }
  }

  /** The four default categories have four different names. */
  lemma DefaultNamesDistinct()
    ensures NamesDistinct(DefaultCategories)
  {
    assert |DefaultCategories[0].name| == 10 && |DefaultCategories[1].name| == 8;
    assert |DefaultCategories[2].name| == 12 && |DefaultCategories[3].name| == 9;
  }

  /** Adds, in order, each seed whose name no category of `existing` has
      exactly; `existing` is the table as stored before the loop began. */
  function AddMissing(s: Store, seeds: seq<CategorySeed>, existing: seq<Category>): (r: Store)
    ensures r == s.(categories := r.categories, nextCategoryId := r.nextCategoryId)
    ensures |s.categories| <= |r.categories| && r.categories[..|s.categories|] == s.categories
    ensures r.nextCategoryId == s.nextCategoryId + (|r.categories| - |s.categories|)
    ensures forall i | |s.categories| <= i < |r.categories| ::
      && r.categories[i].id == s.nextCategoryId + (i - |s.categories|)
      && !HasName(existing, r.categories[i].name)
      && CategorySeed(r.categories[i].name, r.categories[i].description) in seeds
    decreases |seeds|
  {
    if |seeds| == 0 then s
    else
      var s' := if HasName(existing, seeds[0].name) then s
        else s.(categories := s.categories + [Category(s.nextCategoryId, seeds[0].name, seeds[0].description)],
                nextCategoryId := s.nextCategoryId + 1);
      var r := AddMissing(s', seeds[1..], existing);
      assert r.categories[..|s.categories|] == s'.categories[..|s'.categories|][..|s.categories|];
      r
  }

  /** `after` is `before` followed by one row per entry of `m`, in order,
      each with that entry's name and description. */
  predicate AddedRows(before: seq<Category>, after: seq<Category>, m: seq<CategorySeed>)
  {
    && |after| == |before| + |m|
    && forall i | |before| <= i < |after| ::
         CategorySeed(after[i].name, after[i].description) == m[i - |before|]
  }

  /** One added row in front of the rows added after it. */
  lemma {:induction false} AddedRowsCons(before: seq<Category>, mid: seq<Category>, after: seq<Category>,
                                          d: CategorySeed, m: seq<CategorySeed>)
    requires |mid| == |before| + 1 && mid[|before|].name == d.name && mid[|before|].description == d.description
    requires |mid| <= |after| && after[..|mid|] == mid
    requires AddedRows(mid, after, m)
    ensures AddedRows(before, after, [d] + m)
  {
    assert after[|before|] == mid[|before|];
    forall i | |before| <= i < |after|
      ensures CategorySeed(after[i].name, after[i].description) == ([d] + m)[i - |before|]
    {
      if i > |before| {
        assert ([d] + m)[i - |before|] == m[i - |mid|];
      }
    }
  }

  /** The rows the loop adds are exactly `Missing(seeds, existing)`, in
      order: each missing seed once, nothing else. */
  lemma {:induction false} AddMissingAddsMissing(s: Store, seeds: seq<CategorySeed>, existing: seq<Category>)
    ensures AddedRows(s.categories, AddMissing(s, seeds, existing).categories, Missing(seeds, existing))
    decreases |seeds|
  {
    if |seeds| > 0 {
      var s' := if HasName(existing, seeds[0].name) then s
        else s.(categories := s.categories + [Category(s.nextCategoryId, seeds[0].name, seeds[0].description)],
                nextCategoryId := s.nextCategoryId + 1);
      var r := AddMissing(s', seeds[1..], existing);
      assert r == AddMissing(s, seeds, existing);
      AddMissingAddsMissing(s', seeds[1..], existing);
      var mt := Missing(seeds[1..], existing);
      if HasName(existing, seeds[0].name) {
        assert Missing(seeds, existing) == mt;
      } else {
        assert Missing(seeds, existing) == [seeds[0]] + mt;
        AddedRowsCons(s.categories, s'.categories, r.categories, seeds[0], mt);
      }
    }
  }

  /** Some category has exactly the seed's name and description. */
  predicate HasSeed(cs: seq<Category>, d: CategorySeed)
  {
    exists i | 0 <= i < |cs| :: cs[i].name == d.name && cs[i].description == d.description
  }

  /** Every seed ends up present by exact name: it was there already or
      the loop added it with its description. */
  lemma {:induction false} AddMissingCovers(s: Store, seeds: seq<CategorySeed>, existing: seq<Category>, d: CategorySeed)
    requires d in seeds
    ensures HasName(existing, d.name) || HasSeed(AddMissing(s, seeds, existing).categories, d)
    decreases |seeds|
  {
    var s' := if HasName(existing, seeds[0].name) then s
      else s.(categories := s.categories + [Category(s.nextCategoryId, seeds[0].name, seeds[0].description)],
              nextCategoryId := s.nextCategoryId + 1);
    var r := AddMissing(s, seeds, existing);
    assert r == AddMissing(s', seeds[1..], existing);
    if d == seeds[0] {
      if !HasName(existing, d.name) {
        var k := |s.categories|;
        assert r.categories[..|s'.categories|] == s'.categories;
        assert r.categories[k] == s'.categories[k];
      }
    } else {
      assert d in seeds[1..];
      AddMissingCovers(s', seeds[1..], existing, d);
    }
  }

  /** Run against the table it starts from, the loop leaves every seed
      name present. */
  lemma AddMissingPresent(s: Store, seeds: seq<CategorySeed>)
    ensures forall d | d in seeds :: HasName(AddMissing(s, seeds, s.categories).categories, d.name)
  {
    var r := AddMissing(s, seeds, s.categories);
    forall d | d in seeds
      ensures HasName(r.categories, d.name)
    {
      AddMissingCovers(s, seeds, s.categories, d);
      if HasName(s.categories, d.name) {
        var i :| 0 <= i < |s.categories| && s.categories[i].name == d.name;
        assert r.categories[..|s.categories|][i] == s.categories[i];
      }
    }
  }

  /** `after` (with counter `afterNext`) is what the default-category step
      leaves from `before` (with counter `next`): every stored category
      stays; the added rows are exactly the defaults whose name `before`
      lacked, once each and in list order, under the next identities in
      turn; no two added rows share a name; the counter moves past the
      added rows; and every default name is present. */
  predicate DefaultsAdded(before: seq<Category>, next: int, after: seq<Category>, afterNext: int)
  {
    && |before| <= |after| && after[..|before|] == before
    && afterNext == next + (|after| - |before|)
    && (forall i | |before| <= i < |after| ::
          && after[i].id == next + (i - |before|)
          && !HasName(before, after[i].name)
          && CategorySeed(after[i].name, after[i].description) in DefaultCategories)
    && AddedRows(before, after, Missing(DefaultCategories, before))
    && (forall i, j | |before| <= i < j < |after| :: after[i].name != after[j].name)
    && (forall d | d in DefaultCategories :: HasName(after, d.name))
  }

  /** Rows added for seeds with distinct names have distinct names. */
  lemma {:induction false} AddedNamesDistinct(before: seq<Category>, after: seq<Category>, seeds: seq<CategorySeed>)
    requires NamesDistinct(seeds)
    requires AddedRows(before, after, Missing(seeds, before))
    ensures forall i, j | |before| <= i < j < |after| :: after[i].name != after[j].name
  {
    var m := Missing(seeds, before);
    MissingNamesDistinct(seeds, before);
    forall i, j | |before| <= i < j < |after|
      ensures after[i].name != after[j].name
    {
      assert after[i].name == m[i - |before|].name && after[j].name == m[j - |before|].name;
    }
  }

  /** The default-category step of the seeder: the categories change only
      as `DefaultsAdded` allows, and nothing outside the category table
      changes. */
  function SeedCategories(s: Store): (r: Store)
    ensures r == s.(categories := r.categories, nextCategoryId := r.nextCategoryId)
    ensures DefaultsAdded(s.categories, s.nextCategoryId, r.categories, r.nextCategoryId)
    ensures Wf(s) ==> Wf(r)
  {
    var r := AddMissing(s, DefaultCategories, s.categories);
    AddMissingPresent(s, DefaultCategories);
    AddMissingAddsMissing(s, DefaultCategories, s.categories);
    DefaultNamesDistinct();
    AddedNamesDistinct(s.categories, r.categories, DefaultCategories);
    assert Wf(s) ==> Wf(r) by {
      if Wf(s) {
        AddMissingKeepsWf(s, DefaultCategories, s.categories);
      }
    }
    r
  }

  /** The whole seeder as written: the administrator step, then the
      category step. Accounts change only by the administrator the guard
      lets through, categories only as `DefaultsAdded` allows; products,
      cart lines and orders are untouched. */
  function Seed(s: Store, h: AuthService.Hasher): (r: Store)
    ensures HasEmail(s.users, AdminGuardEmail) ==> r.users == s.users && r.nextUserId == s.nextUserId
    ensures !HasEmail(s.users, AdminGuardEmail) ==>
      && |r.users| == |s.users| + 1 && r.users[..|s.users|] == s.users
      && IsAdmin(r.users[|s.users|], s.nextUserId, h)
      && r.nextUserId == s.nextUserId + 1
    ensures r == s.(users := r.users, nextUserId := r.nextUserId,
                    categories := r.categories, nextCategoryId := r.nextCategoryId)
    ensures DefaultsAdded(s.categories, s.nextCategoryId, r.categories, r.nextCategoryId)
    ensures Wf(s) ==> Wf(r)
  {
    SeedCategories(SeedAdmin(s, h))
  }

  /** When every default name is present, the loop adds nothing. */
  lemma {:induction false} AddMissingNothingMissing(s: Store, seeds: seq<CategorySeed>, existing: seq<Category>)
    requires forall d | d in seeds :: HasName(existing, d.name)
    ensures AddMissing(s, seeds, existing) == s
    decreases |seeds|
  {
    if |seeds| > 0 {
      assert seeds[0] in seeds;
      assert forall d | d in seeds[1..] :: d in seeds;
      AddMissingNothingMissing(s, seeds[1..], existing);
    }
  }

  /** Category seeding is idempotent. */
  lemma SeedCategoriesIdempotent(s: Store)
    ensures SeedCategories(SeedCategories(s)) == SeedCategories(s)
  {
    var r := SeedCategories(s);
    AddMissingNothingMissing(r, DefaultCategories, r.categories);
  }

  /** Running the seeder as written a second time adds no category and
      leaves the category counter where it was. */
  lemma SeedTwiceAddsNoCategories(s: Store, h: AuthService.Hasher)
    ensures Seed(Seed(s, h), h).categories == Seed(s, h).categories
    ensures Seed(Seed(s, h), h).nextCategoryId == Seed(s, h).nextCategoryId
  {
    var s1 := Seed(s, h);
    var a := SeedAdmin(s1, h);
    assert a.categories == s1.categories;
    AddMissingNothingMissing(a, DefaultCategories, a.categories);
  }

  /** Adding categories under consecutive identities keeps the identity
      discipline. */
  lemma {:induction false} AddMissingKeepsWf(s: Store, seeds: seq<CategorySeed>, existing: seq<Category>)
    requires Wf(s)
    ensures Wf(AddMissing(s, seeds, existing))
    decreases |seeds|
  {
    if |seeds| > 0 {
      var s' := if HasName(existing, seeds[0].name) then s
        else s.(categories := s.categories + [Category(s.nextCategoryId, seeds[0].name, seeds[0].description)],
                nextCategoryId := s.nextCategoryId + 1);
      if !HasName(existing, seeds[0].name) {
        AppendCategoryWf(s, Category(s.nextCategoryId, seeds[0].name, seeds[0].description));
      }
      AddMissingKeepsWf(s', seeds[1..], existing);
    }
  }

  /** The category check is exact: a store whose categories carry the
      default names only in another case gets all four defaults added,
      although category lookup by name ignores case. */
  lemma SeedCategoriesIsCaseSensitive(s: Store)
    requires forall d | d in DefaultCategories :: !HasName(s.categories, d.name)
    ensures |SeedCategories(s).categories| == |s.categories| + |DefaultCategories|
  {
    AddMissingAllMissing(s, DefaultCategories, s.categories);
  }

  lemma {:induction false} AddMissingAllMissing(s: Store, seeds: seq<CategorySeed>, existing: seq<Category>)
    requires forall d | d in seeds :: !HasName(existing, d.name)
    ensures |AddMissing(s, seeds, existing).categories| == |s.categories| + |seeds|
    decreases |seeds|
  {
    if |seeds| > 0 {
      assert seeds[0] in seeds;
      assert forall d | d in seeds[1..] :: d in seeds;
      var s' := s.(categories := s.categories + [Category(s.nextCategoryId, seeds[0].name, seeds[0].description)],
                   nextCategoryId := s.nextCategoryId + 1);
      AddMissingAllMissing(s', seeds[1..], existing);
    }
  }
}

=== FILE: dtos.dfy ===
/** Request and response shapes of the REST API (the DTO classes). The
    computed `Formatted*` strings are presentation and are not kept. */
module Dtos {
  import opened Wrappers
  import opened Primitives

  datatype CategoryDto = CategoryDto(id: int, name: string, description: string)

  datatype CreateCategoryRequest = CreateCategoryRequest(name: string, description: string)

  datatype ProductDto = ProductDto(
    id: int, name: string, description: string, price: int, stock: Int32,
    imageUrl: string, categoryId: int, categoryName: string)

  /** `imageFile` is the client-side name of the uploaded file, if one was
      uploaded; `categoryName` is empty when the form leaves it out. */
  datatype CreateProductRequest = CreateProductRequest(
    name: string, description: string, price: int, stock: Int32,
    imageFile: Option<string>, categoryId: int, categoryName: string)

  datatype UpdateStockRequest = UpdateStockRequest(productId: int, quantityToAdd: Int32)

  datatype CartItemDto = CartItemDto(
    id: int, productId: int, productName: string, imageUrl: string,
    price: int, quantity: Int32)
  {
    /** The computed `TotalPrice` property: decimal times int, exact. */
    function TotalPrice(): int
    {
      price * quantity
    }
  }

  /** `AddToCartDto`; `Quantity` defaults to 1 when the client omits it. */
  datatype AddToCartRequest = AddToCartRequest(productId: int, quantity: Int32)

  const DefaultCartQuantity: Int32 := 1

  /** The request a client sends when it gives only the product. */
  function AddOne(productId: int): (r: AddToCartRequest)
    ensures r.productId == productId && r.quantity == 1
  {
    AddToCartRequest(productId, DefaultCartQuantity)
  }

  datatype OrderItemDto = OrderItemDto(productId: int, productName: string, quantity: Int32, price: int)

  datatype OrderDto = OrderDto(
    id: int, orderDate: int, totalAmount: int, status: string, items: seq<OrderItemDto>)

  datatype RegisterRequest = RegisterRequest(name: string, email: string, password: string)

  datatype LoginRequest = LoginRequest(email: string, password: string)
}

=== FILE: envelope.dfy ===
/** The `{Success, Message, Data}` envelope every service operation returns,
    and the pair (envelope, new store) a state-changing operation yields. */
module Envelope {
  import opened Wrappers
  import opened Models

  /** Message of a response whose operation never sets one. */
  const DefaultMessage: string := ""

  /** Message the error-handling middleware sends for any unanticipated
      exception (a null dereference among them). */
  const InternalErrorMessage: string := "Terjadi kesalahan internal server. Silakan coba lagi."

  /** `ServiceResponse<T>`: `data` is `None` when the operation leaves
      `Data` at its default value. */
  datatype Response<+T> = Response(success: bool, message: string, data: Option<T>)

  /** A successful response carrying `data`. */
  function Ok<T>(data: T, message: string): (r: Response<T>)
    ensures r.success && r.data == Some(data) && r.message == message
  {
    Response(true, message, Some(data))
  }

  /** A failed response: `Data` stays at its default. */
  function Fail<T>(message: string): (r: Response<T>)
    ensures !r.success && r.data.None? && r.message == message
  {
    Response(false, message, None)
  }

  /** What a state-changing operation yields: its envelope and the store
      after the operation, committed as one unit. */
  datatype Step<+T> = Step(response: Response<T>, store: Store)
}

=== FILE: mapping.dfy ===
/** The object-to-object projections of the mapping profile. Fields mapped
    by name are copied; the explicit rules are the ones stated in the
    lemmas below. A navigation property that is not loaded (a missing
    category or product row, which the model admits because it does not
    enforce foreign keys) yields the member's default value, as the
    null-safe `MapFrom` expressions do: `0` for a price, and for a string
    the null the model writes as `""`. */
module Mapping {
  import opened Wrappers
  import opened Primitives
  import opened Models
  import opened Dtos

  /** The name of the first category with that id, or the empty string
      when there is none. */
  function CategoryNameOf(cs: seq<Category>, categoryId: int): string
  {
    match CategoryIndex(cs, categoryId)
    case Some(k) => cs[k].name
    case None => ""
  }

  /** `Product -> ProductDto`: the row's own fields are copied, and
      `CategoryName` is the name of the (first) category the product
      references, or empty when no category has that id. */
  function ProductToDto(p: Product, cs: seq<Category>): (r: ProductDto)
    ensures r.id == p.id && r.name == p.name && r.description == p.description
    ensures r.price == p.price && r.stock == p.stock && r.imageUrl == p.imageUrl
    ensures r.categoryId == p.categoryId
    ensures (forall i | 0 <= i < |cs| :: cs[i].id != p.categoryId) ==> r.categoryName == ""
    ensures forall i | 0 <= i < |cs| && cs[i].id == p.categoryId ::
      (forall j | 0 <= j < i :: cs[j].id != p.categoryId) ==> r.categoryName == cs[i].name
  {
    ProductDto(p.id, p.name, p.description, p.price, p.stock, p.imageUrl,
               p.categoryId, CategoryNameOf(cs, p.categoryId))
  }

  /** `Category -> CategoryDto`. */
  function CategoryToDto(c: Category): CategoryDto
  {
    CategoryDto(c.id, c.name, c.description)
  }

  /** `CreateCategoryDto -> Category`; the id is the one the database assigns. */
  function CategoryFromRequest(req: CreateCategoryRequest, id: int): Category
  {
    Category(id, req.name, req.description)
  }

  /** `CreateProductDto -> Product`: `ImageUrl` is ignored and stays empty;
      the service sets it, and overwrites `CategoryId` with the resolved one. */
  function ProductFromRequest(req: CreateProductRequest, id: int): Product
  {
    Product(id, req.name, req.description, req.price, req.stock, "", req.categoryId)
  }

  /** `RegisterRequest -> User`: `PasswordHash` is ignored and stays empty,
      and `Role` keeps the entity default. */
  function UserFromRegister(req: RegisterRequest, id: int): User
  {
    User(id, req.name, req.email, "", "Customer")
  }

  /** `AddToCartDto -> Cart`: product and quantity; the owner is set by the
      service and the id by the database. */
  function CartLineFromRequest(req: AddToCartRequest, id: int, userId: int): CartLine
  {
    CartLine(id, userId, req.productId, req.quantity)
  }

  /** `Cart -> CartItemDto`: name, image and price of the live product,
      quantity of the cart line, so `TotalPrice` is the live price times the
      quantity; with the product row missing, the product fields are empty
      and the item is worth nothing. */
  function CartLineToDto(l: CartLine, ps: map<int, Product>): (r: CartItemDto)
    ensures r.id == l.id && r.productId == l.productId && r.quantity == l.quantity
    ensures l.productId in ps ==>
      && r.productName == ps[l.productId].name
      && r.imageUrl == ps[l.productId].imageUrl
      && r.price == ps[l.productId].price
      && r.TotalPrice() == ps[l.productId].price * l.quantity
    ensures l.productId !in ps ==>
      r.productName == "" && r.imageUrl == "" && r.price == 0 && r.TotalPrice() == 0
  {
    if l.productId in ps then
      var p := ps[l.productId];
      CartItemDto(l.id, l.productId, p.name, p.imageUrl, p.price, l.quantity)
    else
      CartItemDto(l.id, l.productId, "", "", 0, l.quantity)
  }

  function CartLinesToDtos(ls: seq<CartLine>, ps: map<int, Product>): (r: seq<CartItemDto>)
    ensures |r| == |ls|
    ensures forall i | 0 <= i < |ls| :: r[i] == CartLineToDto(ls[i], ps)
  {
    seq(|ls|, i requires 0 <= i < |ls| => CartLineToDto(ls[i], ps))
  }

  /** `OrderProduct -> OrderItemDto`: the product's name, but the price
      stored on the line. */
  function OrderLineToDto(l: OrderLine, ps: map<int, Product>): (r: OrderItemDto)
    ensures r.productId == l.productId && r.quantity == l.quantity && r.price == l.price
    ensures l.productId in ps ==> r.productName == ps[l.productId].name
    ensures l.productId !in ps ==> r.productName == ""
  {
    OrderItemDto(l.productId, if l.productId in ps then ps[l.productId].name else "",
                 l.quantity, l.price)
  }

  /** `Order -> OrderDto`: the header is copied and `Items` come from
      `OrderProducts`, one item per line, in order. */
  function OrderToDto(o: Order, ps: map<int, Product>): (r: OrderDto)
    ensures r.id == o.id && r.orderDate == o.orderDate
    ensures r.totalAmount == o.totalAmount && r.status == o.status
    ensures |r.items| == |o.lines|
    ensures forall i | 0 <= i < |o.lines| ::
      && r.items[i].productId == o.lines[i].productId
      && r.items[i].quantity == o.lines[i].quantity
      && r.items[i].price == o.lines[i].price
  {
    OrderDto(o.id, o.orderDate, o.totalAmount, o.status,
             seq(|o.lines|, i requires 0 <= i < |o.lines| => OrderLineToDto(o.lines[i], ps)))
  }

  /** Sum of the `TotalPrice` of a list of cart items. */
  function ItemsTotal(items: seq<CartItemDto>): int
  {
    if |items| == 0 then 0 else items[0].TotalPrice() + ItemsTotal(items[1..])
  }

  // ---------------------------------------------------------------------
  // The projection rules.
  // ---------------------------------------------------------------------

  /** Under unique ids, a product's `CategoryName` is the name of the
      stored category it references. */
  lemma ProductCategoryName(s: Store, p: Product, c: Category)
    requires Wf(s)
    requires c in s.categories && p.categoryId == c.id
    ensures ProductToDto(p, s.categories).categoryName == c.name
    ensures ProductToDto(p, s.categories).categoryId == c.id
  {
    FindCategoryUnique(s, c.id, c);
  }

  /** A repricing of the product shows in the cart at once. */
  lemma CartItemFollowsRepricing(l: CartLine, ps: map<int, Product>, newPrice: int)
    requires l.productId in ps
    ensures CartLineToDto(l, ps[l.productId := ps[l.productId].(price := newPrice)]).price == newPrice
  {
  }

  /** An order item shows the price stored on the order line, whatever the
      product rows currently say: repricing or deleting the product leaves
      it unchanged. */
  lemma OrderItemIsSnapshot(l: OrderLine, ps1: map<int, Product>, ps2: map<int, Product>)
    ensures OrderLineToDto(l, ps1).price == l.price
    ensures OrderLineToDto(l, ps1).price == OrderLineToDto(l, ps2).price
    ensures OrderLineToDto(l, ps1).quantity == l.quantity
    ensures OrderLineToDto(l, ps1).productId == l.productId
  {
  }

  /** An order's items are its lines, one for one and in order, and the
      whole projection ignores the live prices. */
  lemma OrderItemsAreLines(o: Order, ps1: map<int, Product>, ps2: map<int, Product>)
    ensures |OrderToDto(o, ps1).items| == |o.lines|
    ensures forall i | 0 <= i < |o.lines| ::
      && OrderToDto(o, ps1).items[i].productId == o.lines[i].productId
      && OrderToDto(o, ps1).items[i].quantity == o.lines[i].quantity
      && OrderToDto(o, ps1).items[i].price == o.lines[i].price
      && OrderToDto(o, ps1).items[i].price == OrderToDto(o, ps2).items[i].price
    ensures OrderToDto(o, ps1).totalAmount == o.totalAmount
    ensures OrderToDto(o, ps1).status == o.status
  {
  }

  /** Mapping a create request never takes the image from the request: two
      requests that differ only in their upload map to the same entity,
      whose `ImageUrl` is left empty. */
  lemma ProductMappingIgnoresImage(req: CreateProductRequest, other: Option<string>, id: int)
    ensures ProductFromRequest(req, id) == ProductFromRequest(req.(imageFile := other), id)
    ensures ProductFromRequest(req, id).imageUrl == ""
  {
  }

  /** Mapping a registration never stores anything derived from the
      password: two requests that differ only in the password map to the
      same entity, whose `PasswordHash` is left empty. */
  lemma UserMappingIgnoresPassword(req: RegisterRequest, other: string, id: int)
    ensures UserFromRegister(req, id) == UserFromRegister(req.(password := other), id)
    ensures UserFromRegister(req, id).passwordHash == ""
  {
  }
}

=== FILE: models.dfy ===
/** The persistent store the services operate on: one immutable value
    holding every table, with an identity counter per table. */
module Models {
  import opened Wrappers
  import opened Primitives

  datatype User = User(id: int, name: string, email: string, passwordHash: string, role: string)

  datatype Category = Category(id: int, name: string, description: string)

  /** `price` is a decimal amount held exactly in minor units. */
  datatype Product = Product(
    id: int, name: string, description: string, price: int,
    stock: Int32, imageUrl: string, categoryId: int)

  /** One row of the `Carts` table: a quantity of one product in one
      user's cart. */
  datatype CartLine = CartLine(id: int, userId: int, productId: int, quantity: Int32)

  /** `OrderProduct`: a line of an order with the price paid, copied
      from the product when the order was placed. */
  datatype OrderLine = OrderLine(productId: int, quantity: Int32, price: int)

  /** `orderDate` is a timestamp (ticks). */
  datatype Order = Order(
    id: int, userId: int, orderDate: int, totalAmount: int,
    status: string, lines: seq<OrderLine>)

  /** Rows are kept in insertion order, which is identity order; the
      `next*` fields are the identity values the database hands out next. */
  datatype Store = Store(
    users: seq<User>,
    categories: seq<Category>,
    products: map<int, Product>,
    carts: seq<CartLine>,
    orders: seq<Order>,
    nextUserId: int,
    nextCategoryId: int,
    nextProductId: int,
    nextCartId: int,
    nextOrderId: int)

  /** The store of a fresh database. */
  const EmptyStore: Store := Store([], [], map[], [], [], 1, 1, 1, 1, 1)

  // ---------------------------------------------------------------------
  // Identity discipline: what the database's identity columns guarantee.
  // ---------------------------------------------------------------------

  predicate UserIdsOk(s: Store)
  {
    && 0 < s.nextUserId
    && (forall i | 0 <= i < |s.users| :: 0 < s.users[i].id < s.nextUserId)
    && (forall i, j | 0 <= i < j < |s.users| :: s.users[i].id < s.users[j].id)
  }

  predicate CategoryIdsOk(s: Store)
  {
    && 0 < s.nextCategoryId
    && (forall i | 0 <= i < |s.categories| :: 0 < s.categories[i].id < s.nextCategoryId)
    && (forall i, j | 0 <= i < j < |s.categories| :: s.categories[i].id < s.categories[j].id)
  }

  predicate ProductIdsOk(s: Store)
  {
    && 0 < s.nextProductId
    && forall k | k in s.products :: s.products[k].id == k && 0 < k < s.nextProductId
  }

  predicate CartIdsOk(s: Store)
  {
    0 < s.nextCartId && CartIdsBelow(s.carts, s.nextCartId)
  }

  /** Cart line ids are positive, below `next`, and increasing. */
  predicate CartIdsBelow(carts: seq<CartLine>, next: int)
  {
    && (forall i | 0 <= i < |carts| :: 0 < carts[i].id < next)
    && (forall i, j | 0 <= i < j < |carts| :: carts[i].id < carts[j].id)
  }

  predicate OrderIdsOk(s: Store)
  {
    && 0 < s.nextOrderId
    && (forall i | 0 <= i < |s.orders| :: 0 < s.orders[i].id < s.nextOrderId)
    && (forall i, j | 0 <= i < j < |s.orders| :: s.orders[i].id < s.orders[j].id)
  }

  /** Every row has a positive identity below its table's counter, and
      identities grow in insertion order (so they are unique). */
  predicate Wf(s: Store)
  {
    UserIdsOk(s) && CategoryIdsOk(s) && ProductIdsOk(s) && CartIdsOk(s) && OrderIdsOk(s)
  }

  lemma EmptyStoreWf()
    ensures Wf(EmptyStore)
  {
  }

  /** Inserting a row with the table's next identity keeps the discipline. */
  lemma AppendCategoryWf(s: Store, c: Category)
    requires Wf(s) && c.id == s.nextCategoryId
    ensures Wf(s.(categories := s.categories + [c], nextCategoryId := s.nextCategoryId + 1))
  {
    var s' := s.(categories := s.categories + [c], nextCategoryId := s.nextCategoryId + 1);
    assert CategoryIdsOk(s') by {
      assert forall i | 0 <= i < |s.categories| :: s'.categories[i] == s.categories[i];
    }
  }

  lemma AppendUserWf(s: Store, u: User)
    requires Wf(s) && u.id == s.nextUserId
    ensures Wf(s.(users := s.users + [u], nextUserId := s.nextUserId + 1))
  {
    var s' := s.(users := s.users + [u], nextUserId := s.nextUserId + 1);
    assert UserIdsOk(s') by {
      assert forall i | 0 <= i < |s.users| :: s'.users[i] == s.users[i];
    }
  }

  lemma InsertProductWf(s: Store, p: Product)
    requires p.id == s.nextProductId
    ensures Wf(s) ==> Wf(s.(products := s.products[p.id := p], nextProductId := s.nextProductId + 1))
  {
  }

  lemma AppendCartWf(s: Store, l: CartLine)
    requires Wf(s) && l.id == s.nextCartId
    ensures Wf(s.(carts := s.carts + [l], nextCartId := s.nextCartId + 1))
  {
    var s' := s.(carts := s.carts + [l], nextCartId := s.nextCartId + 1);
    assert CartIdsOk(s') by {
      assert forall i | 0 <= i < |s.carts| :: s'.carts[i] == s.carts[i];
    }
  }

  lemma AppendOrderWf(s: Store, o: Order)
    requires Wf(s) && o.id == s.nextOrderId
    ensures Wf(s.(orders := s.orders + [o], nextOrderId := s.nextOrderId + 1))
  {
    var s' := s.(orders := s.orders + [o], nextOrderId := s.nextOrderId + 1);
    assert OrderIdsOk(s') by {
      assert forall i | 0 <= i < |s.orders| :: s'.orders[i] == s.orders[i];
    }
  }

  // ---------------------------------------------------------------------
  // Lookups.
  // ---------------------------------------------------------------------

  /** Lookup of a category by primary key: the index of the category with that id. */
  function CategoryIndex(cs: seq<Category>, id: int): (r: Option<nat>)
    ensures r.None? <==> forall i | 0 <= i < |cs| :: cs[i].id != id
    ensures r.Some? ==> r.value < |cs| && cs[r.value].id == id
    ensures r.Some? ==> forall i | 0 <= i < r.value :: cs[i].id != id
  {
    if |cs| == 0 then None
    else if cs[0].id == id then Some(0)
    else match CategoryIndex(cs[1..], id)
      case None => None
      case Some(k) => Some(k + 1)
  }

  /** The category with that id, if any. */
  function FindCategory(cs: seq<Category>, id: int): (r: Option<Category>)
    ensures r.None? <==> forall i | 0 <= i < |cs| :: cs[i].id != id
    ensures r.Some? ==> r.value in cs && r.value.id == id
  {
    match CategoryIndex(cs, id)
    case None => None
    case Some(k) => Some(cs[k])
  }

  /** Under unique ids the category found by id is the only one with it. */
  lemma FindCategoryUnique(s: Store, id: int, c: Category)
    requires Wf(s)
    requires c in s.categories && c.id == id
    ensures FindCategory(s.categories, id) == Some(c)
  {
    var k :| 0 <= k < |s.categories| && s.categories[k] == c;
    var j := CategoryIndex(s.categories, id).value;
    assert s.categories[j].id == s.categories[k].id;
  }

  /** The rows of `carts` whose owner is `userId`, in table order: the
      user filter of the cart and checkout queries. */
  function CartOf(carts: seq<CartLine>, userId: int): (r: seq<CartLine>)
    ensures |r| <= |carts|
    ensures forall l | l in r :: l in carts && l.userId == userId
  {
    if |carts| == 0 then []
    else (if carts[0].userId == userId then [carts[0]] else []) + CartOf(carts[1..], userId)
  }

  /** Every line of `userId` is in their cart. */
  lemma {:induction false} CartOfComplete(carts: seq<CartLine>, userId: int, l: CartLine)
    requires l in carts && l.userId == userId
    ensures l in CartOf(carts, userId)
  {
    if carts[0] != l {
      assert l in carts[1..];
      CartOfComplete(carts[1..], userId, l);
    }
  }

  /** The rows of `carts` that do not belong to `userId`, in table order. */
  function CartsExcept(carts: seq<CartLine>, userId: int): (r: seq<CartLine>)
    ensures |r| <= |carts|
    ensures forall l | l in r :: l in carts && l.userId != userId
  {
    if |carts| == 0 then []
    else (if carts[0].userId != userId then [carts[0]] else []) + CartsExcept(carts[1..], userId)
  }

  /** Removing index `i` from a sequence. */
  function RemoveAt<T>(xs: seq<T>, i: nat): (r: seq<T>)
    requires i < |xs|
    ensures |r| == |xs| - 1
    ensures forall j | 0 <= j < i :: r[j] == xs[j]
    ensures forall j | i <= j < |r| :: r[j] == xs[j + 1]
  {
    xs[..i] + xs[i + 1..]
  }
}

=== FILE: order_service.dfy ===
/** Checkout (cart to order) and the caller's order history. */
module OrderService {
  import opened Wrappers
  import opened Primitives
  import opened Models
  import opened Dtos
  import opened Envelope
  import opened Mapping
  import CartService

  const CartEmpty: string := "Cart is empty."
  const Placed: string := "Order placed successfully!"

  /** Status checkout gives every order. */
  const Completed: string := "Completed"

  /** Every line refers to a product that exists. */
  predicate AllPriced(lines: seq<CartLine>, ps: map<int, Product>)
  {
    forall i | 0 <= i < |lines| :: lines[i].productId in ps
  }

  /** The amount checkout charges: each line's live product price times
      its quantity, summed over the lines. */
  function CartTotal(lines: seq<CartLine>, ps: map<int, Product>): (r: int)
    requires AllPriced(lines, ps)
    ensures r == ItemsTotal(CartLinesToDtos(lines, ps))
  {
    if |lines| == 0 then 0
    else
      assert CartLinesToDtos(lines, ps)[1..] == CartLinesToDtos(lines[1..], ps);
      ps[lines[0].productId].price * lines[0].quantity + CartTotal(lines[1..], ps)
  }

  /** Σ price × quantity over the stored lines of an order. */
  function LinesTotal(lines: seq<OrderLine>): int
  {
    if |lines| == 0 then 0 else lines[0].price * lines[0].quantity + LinesTotal(lines[1..])
  }

  /** One order line per cart line, copying product and quantity and the
      product's current price; the stored lines add up to what checkout
      charges. */
  function SnapshotLines(lines: seq<CartLine>, ps: map<int, Product>): (r: seq<OrderLine>)
    requires AllPriced(lines, ps)
    ensures |r| == |lines|
    ensures forall i | 0 <= i < |lines| ::
      r[i] == OrderLine(lines[i].productId, lines[i].quantity, ps[lines[i].productId].price)
    ensures LinesTotal(r) == CartTotal(lines, ps)
  {
    if |lines| == 0 then []
    else [OrderLine(lines[0].productId, lines[0].quantity, ps[lines[0].productId].price)]
         + SnapshotLines(lines[1..], ps)
  }

  /** Total quantity of `productId` over `lines`. */
  function QuantityOf(lines: seq<CartLine>, productId: int): int
  {
    if |lines| == 0 then 0
    else (if lines[0].productId == productId then lines[0].quantity else 0) + QuantityOf(lines[1..], productId)
  }

  /** Every product lowered by the total quantity of the lines naming it
      (modulo 2^32), every other field and product untouched: what the
      stock loop should leave, stated without the loop. */
  function Lowered(ps: map<int, Product>, lines: seq<CartLine>): map<int, Product>
  {
    map k | k in ps :: ps[k].(stock := Wrap32(ps[k].stock - QuantityOf(lines, k)))
  }

  /** The stock decrements of the checkout loop, one line after another;
      the loop leaves exactly the rows `Lowered` describes. */
  function DecrementStock(ps: map<int, Product>, lines: seq<CartLine>): (r: map<int, Product>)
    requires AllPriced(lines, ps)
    ensures r.Keys == ps.Keys
    ensures r == Lowered(ps, lines)
    decreases |lines|
  {
    if |lines| == 0 then
      NothingToDecrement(ps, lines);
      ps
    else
      var l := lines[0];
      var p := ps[l.productId];
      var ps' := ps[l.productId := p.(stock := Wrap32(p.stock - l.quantity))];
      AllPricedTail(lines, ps, ps');
      DecrementStep(ps, lines, ps');
      DecrementStock(ps', lines[1..])
  }

  /** With no lines the stock loop changes nothing. */
  lemma {:induction false} NothingToDecrement(ps: map<int, Product>, lines: seq<CartLine>)
    requires |lines| == 0
    ensures Lowered(ps, lines) == ps
  {
    forall k | k in ps
      ensures Lowered(ps, lines)[k] == ps[k]
    {
      assert QuantityOf(lines, k) == 0;
    }
  }

  /** The lines after the first are still priced once the first line's
      product row is updated. */
  lemma {:induction false} AllPricedTail(lines: seq<CartLine>, ps: map<int, Product>, ps': map<int, Product>)
    requires |lines| > 0 && AllPriced(lines, ps) && ps'.Keys == ps.Keys
    ensures AllPriced(lines[1..], ps')
  {
  }

  /** One turn of the stock loop: what the rest of the lines make of the
      rows after the first line's decrement is what all the lines make of
      the rows before it. */
  lemma {:induction false} DecrementStep(ps: map<int, Product>, lines: seq<CartLine>, ps': map<int, Product>)
    requires |lines| > 0 && lines[0].productId in ps
    requires ps' == ps[lines[0].productId := ps[lines[0].productId].(stock := Wrap32(ps[lines[0].productId].stock - lines[0].quantity))]
    ensures Lowered(ps', lines[1..]) == Lowered(ps, lines)
  {
    var l := lines[0];
    forall k | k in ps
      ensures ps'[k].(stock := Wrap32(ps'[k].stock - QuantityOf(lines[1..], k)))
           == ps[k].(stock := Wrap32(ps[k].stock - QuantityOf(lines, k)))
    {
      var q := QuantityOf(lines[1..], k);
      if k == l.productId {
        assert QuantityOf(lines, k) == l.quantity + q;
        DecrementTwice(ps[k].stock, l.quantity, q);
      } else {
        assert QuantityOf(lines, k) == q;
      }
    }
    LoweredAgree(ps', lines[1..], ps, lines);
  }

  /** Two closed forms agree when they agree on every product. */
  lemma {:induction false} LoweredAgree(ps: map<int, Product>, a: seq<CartLine>, qs: map<int, Product>, b: seq<CartLine>)
    requires ps.Keys == qs.Keys
    requires forall k | k in qs ::
      ps[k].(stock := Wrap32(ps[k].stock - QuantityOf(a, k))) == qs[k].(stock := Wrap32(qs[k].stock - QuantityOf(b, k)))
    ensures Lowered(ps, a) == Lowered(qs, b)
  {
  }

  lemma DecrementTwice(stock: int, a: int, b: int)
    ensures Wrap32(Wrap32(stock - a) - b) == Wrap32(stock - (a + b))
  {
    WrapTwice(stock - a, -b);
  }

  /** Turns the caller's cart into one completed order. An empty cart fails
      with "Cart is empty." and changes nothing. A line whose product row is
      missing (the model does not enforce foreign keys, so it admits such a
      line) is taken to make the price lookup throw, which the error
      middleware turns into its generic failure, again changing nothing. Otherwise the order
      (next identity, the caller, `now`, status "Completed") gets one line
      per cart line with the product's current price and the total of those
      lines; stock drops by the ordered quantities; the caller's cart lines
      are deleted and every other user's lines stay. */
  function Checkout(s: Store, userId: int, now: int): (r: Step<OrderDto>)
    ensures |CartOf(s.carts, userId)| == 0 ==> r == Step(Fail(CartEmpty), s)
    ensures |CartOf(s.carts, userId)| > 0 && !AllPriced(CartOf(s.carts, userId), s.products) ==>
      r == Step(Fail(InternalErrorMessage), s)
    ensures r.response.success <==>
      |CartOf(s.carts, userId)| > 0 && AllPriced(CartOf(s.carts, userId), s.products)
    ensures r.response.success ==>
      var lines := CartOf(s.carts, userId);
      && |r.store.orders| == |s.orders| + 1
      && r.store.orders[..|s.orders|] == s.orders
      && var o := r.store.orders[|s.orders|];
      && o.id == s.nextOrderId && o.userId == userId && o.orderDate == now && o.status == Completed
      && |o.lines| == |lines|
      && (forall i | 0 <= i < |lines| ::
           && o.lines[i].productId == lines[i].productId
           && o.lines[i].quantity == lines[i].quantity
           && o.lines[i].price == s.products[lines[i].productId].price)
      && o.totalAmount == CartTotal(lines, s.products)
      && r.store.products == DecrementStock(s.products, lines)
      && r.store.carts == CartsExcept(s.carts, userId)
      && r.store.users == s.users && r.store.categories == s.categories
      && r.store.nextOrderId == s.nextOrderId + 1
      && r.store.nextUserId == s.nextUserId && r.store.nextCategoryId == s.nextCategoryId
      && r.store.nextProductId == s.nextProductId && r.store.nextCartId == s.nextCartId
      && r.response.message == Placed
      && r.response.data == Some(OrderToDto(o, r.store.products))
  {
    var lines := CartOf(s.carts, userId);
    if |lines| == 0 then Step(Fail(CartEmpty), s)
    else if !AllPriced(lines, s.products) then Step(Fail(InternalErrorMessage), s)
    else
      var o := Order(s.nextOrderId, userId, now, CartTotal(lines, s.products), Completed,
                     SnapshotLines(lines, s.products));
      var s' := s.(orders := s.orders + [o], nextOrderId := s.nextOrderId + 1,
                   products := DecrementStock(s.products, lines),
                   carts := CartsExcept(s.carts, userId));
      assert s'.orders[|s.orders|] == o;
      Step(Ok(OrderToDto(o, s'.products), Placed), s')
  }

  // ---------------------------------------------------------------------
  // Order history.
  // ---------------------------------------------------------------------

  /** The orders placed by `userId`, in table order. */
  function OrdersOf(orders: seq<Order>, userId: int): (r: seq<Order>)
    ensures |r| <= |orders|
    ensures forall o | o in r :: o in orders && o.userId == userId
  {
    if |orders| == 0 then []
    else (if orders[0].userId == userId then [orders[0]] else []) + OrdersOf(orders[1..], userId)
  }

  /** Every order of `userId` is among their orders. */
  lemma {:induction false} OrdersOfComplete(orders: seq<Order>, userId: int, o: Order)
    requires o in orders && o.userId == userId
    ensures o in OrdersOf(orders, userId)
  {
    if orders[0] != o {
      assert o in orders[1..];
      OrdersOfComplete(orders[1..], userId, o);
    }
  }

  /** Newest first. */
  predicate NewestFirst(os: seq<Order>)
  {
    forall i, j | 0 <= i < j < |os| :: os[i].orderDate >= os[j].orderDate
  }

  /** Inserts `o` into a newest-first list ahead of every order that is not
      newer, so that equal dates keep their relative order. */
  function InsertByDate(o: Order, os: seq<Order>): (r: seq<Order>)
    requires NewestFirst(os)
    ensures NewestFirst(r)
    ensures multiset(r) == multiset(os) + multiset{o}
    ensures |r| == |os| + 1
    decreases |os|
  {
    if |os| == 0 || o.orderDate >= os[0].orderDate then
      PrependNewest(o, os);
      [o] + os
    else
      var t := InsertByDate(o, os[1..]);
      InsertStep(o, os, t);
      [os[0]] + t
  }

  /** An order at least as new as the head of a newest-first list may go
      in front of it. */
  lemma {:induction false} PrependNewest(o: Order, os: seq<Order>)
    requires NewestFirst(os)
    requires |os| == 0 || o.orderDate >= os[0].orderDate
    ensures NewestFirst([o] + os)
  {
    assert forall y | y in os :: y.orderDate <= o.orderDate;
    ConsNewestFirst(o, os);
  }

  /** The head of a newest-first list may go back in front of the tail
      once an older order has been inserted into the tail. */
  lemma {:induction false} InsertStep(o: Order, os: seq<Order>, t: seq<Order>)
    requires |os| > 0 && NewestFirst(os) && o.orderDate < os[0].orderDate
    requires NewestFirst(t) && multiset(t) == multiset(os[1..]) + multiset{o}
    ensures NewestFirst([os[0]] + t)
    ensures multiset([os[0]] + t) == multiset(os) + multiset{o}
  {
    assert os == [os[0]] + os[1..];
    assert forall y | y in os[1..] :: y.orderDate <= os[0].orderDate;
    BoundedAfterInsert(t, os[1..], o, os[0].orderDate);
    ConsNewestFirst(os[0], t);
  }

  /** Inserting an order no newer than `bound` among orders no newer than
      `bound` keeps every order no newer than `bound`. */
  lemma {:induction false} BoundedAfterInsert(t: seq<Order>, rest: seq<Order>, o: Order, bound: int)
    requires multiset(t) == multiset(rest) + multiset{o}
    requires o.orderDate <= bound
    requires forall y | y in rest :: y.orderDate <= bound
    ensures forall x | x in t :: x.orderDate <= bound
  {
    forall x | x in t
      ensures x.orderDate <= bound
    {
      assert x in multiset(t);
      if x != o {
        assert x in multiset(rest);
      }
    }
  }

  /** An order no older than any in a newest-first list may go in front. */
  lemma {:induction false} ConsNewestFirst(x: Order, t: seq<Order>)
    requires NewestFirst(t)
    requires forall y | y in t :: y.orderDate <= x.orderDate
    ensures NewestFirst([x] + t)
  {
    var r := [x] + t;
    forall i, j | 0 <= i < j < |r|
      ensures r[i].orderDate >= r[j].orderDate
    {
      assert r[j] == t[j - 1];
      if i > 0 {
        assert r[i] == t[i - 1];
      } else {
        assert r[j] in t;
      }
    }
  }

  /** The history's ordering by descending order date: a rearrangement of
      the input, newest first. */
  function SortNewestFirst(os: seq<Order>): (r: seq<Order>)
    ensures NewestFirst(r)
    ensures multiset(r) == multiset(os)
    ensures |r| == |os|
  {
    if |os| == 0 then []
    else
      assert os == [os[0]] + os[1..];
      InsertByDate(os[0], SortNewestFirst(os[1..]))
  }

  /** Sorting neither drops nor invents orders. */
  lemma {:induction false} SortKeepsMembers(os: seq<Order>)
    ensures forall o | o in SortNewestFirst(os) :: o in os
    ensures forall o | o in os :: o in SortNewestFirst(os)
  {
    var r := SortNewestFirst(os);
    forall o | o in r ensures o in os { assert o in multiset(r); }
    forall o | o in os ensures o in r { assert o in multiset(os); }
  }

  function OrdersToDtos(os: seq<Order>, ps: map<int, Product>): (r: seq<OrderDto>)
    ensures |r| == |os|
    ensures forall i | 0 <= i < |os| :: r[i] == OrderToDto(os[i], ps) && r[i].orderDate == os[i].orderDate
  {
    seq(|os|, i requires 0 <= i < |os| => OrderToDto(os[i], ps))
  }

  /** Every order of `userId` survives the filter and the sort. */
  lemma {:induction false} OwnOrdersListed(orders: seq<Order>, userId: int)
    ensures forall o | o in orders && o.userId == userId :: o in SortNewestFirst(OrdersOf(orders, userId))
  {
    SortKeepsMembers(OrdersOf(orders, userId));
    forall o | o in orders && o.userId == userId
      ensures o in SortNewestFirst(OrdersOf(orders, userId))
    {
      OrdersOfComplete(orders, userId, o);
    }
  }

  /** Projecting a newest-first list keeps the dates never increasing. */
  lemma {:induction false} ViewNewestFirst(mine: seq<Order>, ps: map<int, Product>)
    requires NewestFirst(mine)
    ensures var dtos := OrdersToDtos(mine, ps);
      forall i, j | 0 <= i < j < |dtos| :: dtos[i].orderDate >= dtos[j].orderDate
  {
    var dtos := OrdersToDtos(mine, ps);
    forall i, j | 0 <= i < j < |dtos|
      ensures dtos[i].orderDate >= dtos[j].orderDate
    {
      assert mine[i].orderDate >= mine[j].orderDate;
    }
  }

  /** The projections of the orders `userId` placed. */
  function OwnViews(orders: seq<Order>, userId: int, ps: map<int, Product>): set<OrderDto>
  {
    set o | o in orders && o.userId == userId :: OrderToDto(o, ps)
  }

  /** Every item of the projected history is the projection of one of the
      user's orders. */
  lemma {:induction false} ViewShowsOwn(orders: seq<Order>, userId: int, ps: map<int, Product>, dtos: seq<OrderDto>)
    requires dtos == OrdersToDtos(SortNewestFirst(OrdersOf(orders, userId)), ps)
    ensures forall i | 0 <= i < |dtos| :: dtos[i] in OwnViews(orders, userId, ps)
  {
    var own := OrdersOf(orders, userId);
    var mine := SortNewestFirst(own);
    SortKeepsMembers(own);
    forall i | 0 <= i < |dtos|
      ensures dtos[i] in OwnViews(orders, userId, ps)
    {
      assert mine[i] in mine;
      assert mine[i] in own;
      assert mine[i] in orders && mine[i].userId == userId && dtos[i] == OrderToDto(mine[i], ps);
    }
  }

  /** Every order of the user is projected somewhere in the history. */
  lemma {:induction false} ViewShowsAll(orders: seq<Order>, userId: int, ps: map<int, Product>, dtos: seq<OrderDto>)
    requires dtos == OrdersToDtos(SortNewestFirst(OrdersOf(orders, userId)), ps)
    ensures forall o | o in orders && o.userId == userId :: OrderToDto(o, ps) in dtos
  {
    var mine := SortNewestFirst(OrdersOf(orders, userId));
    OwnOrdersListed(orders, userId);
    forall o | o in orders && o.userId == userId
      ensures OrderToDto(o, ps) in dtos
    {
      var k :| 0 <= k < |mine| && mine[k] == o;
      assert dtos[k] == OrderToDto(o, ps);
    }
  }

  /** The caller's orders, newest first: every listed order is one of the
      caller's, every one of the caller's orders is listed, and the dates
      never increase down the list. */
  function GetMyOrders(s: Store, userId: int): (r: Response<seq<OrderDto>>)
    ensures r.success && r.data.Some?
    ensures |r.data.value| == |OrdersOf(s.orders, userId)|
    ensures forall i, j | 0 <= i < j < |r.data.value| :: r.data.value[i].orderDate >= r.data.value[j].orderDate
    ensures forall i | 0 <= i < |r.data.value| :: r.data.value[i] in OwnViews(s.orders, userId, s.products)
    ensures forall o | o in s.orders && o.userId == userId ::
      OrderToDto(o, s.products) in r.data.value
  {
    var mine := SortNewestFirst(OrdersOf(s.orders, userId));
    var dtos := OrdersToDtos(mine, s.products);
    ViewNewestFirst(mine, s.products);
    ViewShowsOwn(s.orders, userId, s.products, dtos);
    ViewShowsAll(s.orders, userId, s.products, dtos);
    Ok(dtos, DefaultMessage)
  }

  // ---------------------------------------------------------------------
  // Properties of checkout.
  // ---------------------------------------------------------------------

  /** A placed order's total is Σ price × quantity over its own stored
      lines, so it agrees with its lines forever after. */
  lemma CheckoutTotalIsLineSum(s: Store, userId: int, now: int)
    requires Checkout(s, userId, now).response.success
    ensures var o := Checkout(s, userId, now).store.orders[|s.orders|];
      o.totalAmount == LinesTotal(o.lines)
  {
    var lines := CartOf(s.carts, userId);
    var o := Checkout(s, userId, now).store.orders[|s.orders|];
    assert o.lines == SnapshotLines(lines, s.products);
  }

  /** The `TotalPrice` figures of the cart view add up to what checkout
      charges for that cart. */
  lemma CartViewTotalIsCheckoutTotal(s: Store, userId: int, now: int)
    requires Checkout(s, userId, now).response.success
    ensures ItemsTotal(CartService.GetMyCart(s, userId).data.value)
      == Checkout(s, userId, now).store.orders[|s.orders|].totalAmount
  {
  }

  /** No product appears on two lines. */
  predicate DistinctProducts(lines: seq<CartLine>)
  {
    forall i, j | 0 <= i < j < |lines| :: lines[i].productId != lines[j].productId
  }

  /** Under the one-line-per-product invariant the caller's cart mentions
      each product at most once. */
  lemma {:induction false} CartOfDistinctProducts(carts: seq<CartLine>, userId: int)
    requires CartService.CartUnique(carts)
    ensures DistinctProducts(CartOf(carts, userId))
  {
    if |carts| > 0 {
      assert CartService.CartUnique(carts[1..]) by {
        forall i, j | 0 <= i < j < |carts[1..]|
          ensures carts[1..][i].userId != carts[1..][j].userId || carts[1..][i].productId != carts[1..][j].productId
        {
          assert carts[1..][i] == carts[i + 1] && carts[1..][j] == carts[j + 1];
        }
      }
      CartOfDistinctProducts(carts[1..], userId);
      var rest := CartOf(carts[1..], userId);
      var lines := CartOf(carts, userId);
      if carts[0].userId == userId {
        assert lines == [carts[0]] + rest;
        forall i, j | 0 <= i < j < |lines|
          ensures lines[i].productId != lines[j].productId
        {
          assert lines[j] == rest[j - 1];
          assert rest[j - 1] in rest;
          if i == 0 {
            assert lines[j] in carts[1..] && lines[j].userId == userId;
            var k :| 0 <= k < |carts[1..]| && carts[1..][k] == lines[j];
            assert carts[k + 1] == lines[j];
            assert 0 < k + 1 < |carts|;
            assert carts[0].userId != carts[k + 1].userId || carts[0].productId != carts[k + 1].productId;
          } else {
            assert lines[i] == rest[i - 1];
            assert 0 <= i - 1 < j - 1 < |rest|;
            assert rest[i - 1].productId != rest[j - 1].productId;
          }
        }
      } else {
        assert lines == rest;
      }
    }
  }

  /** With each product on at most one line, a product's ordered quantity
      is that line's quantity. */
  lemma {:induction false} QuantityOfDistinct(lines: seq<CartLine>, i: nat)
    requires i < |lines|
    requires DistinctProducts(lines)
    ensures QuantityOf(lines, lines[i].productId) == lines[i].quantity
  {
    if i == 0 {
      QuantityOfAbsent(lines[1..], lines[0].productId);
    } else {
      QuantityOfDistinct(lines[1..], i - 1);
      assert lines[1..][i - 1] == lines[i];
    }
  }

  /** A product on no line is ordered in quantity zero. */
  lemma {:induction false} QuantityOfAbsent(lines: seq<CartLine>, productId: int)
    requires forall l | l in lines :: l.productId != productId
    ensures QuantityOf(lines, productId) == 0
  {
    if |lines| > 0 {
      QuantityOfAbsent(lines[1..], productId);
    }
  }

  /** Some line is for `productId`. */
  predicate Mentions(lines: seq<CartLine>, productId: int)
  {
    exists l | l in lines :: l.productId == productId
  }

  /** With each product on at most one line, the stock loop lowers each
      ordered product by its line's quantity. */
  lemma {:induction false} DecrementStockOrdered(ps: map<int, Product>, lines: seq<CartLine>, i: nat)
    requires AllPriced(lines, ps)
    requires DistinctProducts(lines)
    requires i < |lines|
    ensures DecrementStock(ps, lines)[lines[i].productId]
      == ps[lines[i].productId].(stock := Wrap32(ps[lines[i].productId].stock - lines[i].quantity))
  {
    var k := lines[i].productId;
    assert k in ps;
    QuantityOfDistinct(lines, i);
    assert Lowered(ps, lines)[k] == ps[k].(stock := Wrap32(ps[k].stock - QuantityOf(lines, k)));
  }

  /** The stock loop leaves every product no line mentions as it was. */
  lemma {:induction false} DecrementStockUnordered(ps: map<int, Product>, lines: seq<CartLine>, k: int)
    requires AllPriced(lines, ps)
    requires k in ps && !Mentions(lines, k)
    ensures DecrementStock(ps, lines)[k] == ps[k]
  {
    QuantityOfAbsent(lines, k);
    assert Lowered(ps, lines)[k] == ps[k].(stock := Wrap32(ps[k].stock - 0));
  }

  /** Checkout lowers each ordered product's stock by exactly its line's
      quantity (32-bit wrap-around, no lower bound: stock may go negative)
      and leaves every product the caller did not order as it was. */
  lemma CheckoutStock(s: Store, userId: int, now: int)
    requires CartService.CartUnique(s.carts)
    requires Checkout(s, userId, now).response.success
    ensures StockTaken(s.products, CartOf(s.carts, userId), Checkout(s, userId, now).store.products)
  {
    CheckoutProducts(s, userId, now);
    CartOfDistinctProducts(s.carts, userId);
    DecrementStockExact(s.products, CartOf(s.carts, userId));
  }

  /** The stock a successful checkout leaves is the cart's decrement. */
  lemma CheckoutProducts(s: Store, userId: int, now: int)
    requires Checkout(s, userId, now).response.success
    ensures Checkout(s, userId, now).store.products == DecrementStock(s.products, CartOf(s.carts, userId))
  {
  }

  /** `after` is `before` with each line's quantity taken off that line's
      product (32-bit wrap-around) and every product no line mentions kept. */
  predicate StockTaken(before: map<int, Product>, lines: seq<CartLine>, after: map<int, Product>)
  {
    && after.Keys == before.Keys
    && (forall l | l in lines ::
         && l.productId in before
         && after[l.productId] == before[l.productId].(stock := Wrap32(before[l.productId].stock - l.quantity)))
    && (forall k | k in before && !Mentions(lines, k) :: after[k] == before[k])
  }

  /** With one line per product, the stock loop meets the per-product
      description above. */
  lemma {:induction false} DecrementStockExact(ps: map<int, Product>, lines: seq<CartLine>)
    requires AllPriced(lines, ps)
    requires DistinctProducts(lines)
    ensures StockTaken(ps, lines, DecrementStock(ps, lines))
  {
    var r := DecrementStock(ps, lines);
    forall l | l in lines
      ensures l.productId in ps && r[l.productId] == ps[l.productId].(stock := Wrap32(ps[l.productId].stock - l.quantity))
    {
      var i :| 0 <= i < |lines| && lines[i] == l;
      DecrementStockOrdered(ps, lines, i);
    }
    forall k | k in ps && !Mentions(lines, k)
      ensures r[k] == ps[k]
    {
      DecrementStockUnordered(ps, lines, k);
    }
  }

  /** Without overflow, an ordered product's stock falls by exactly the
      ordered quantity, even below zero: nothing checks stock >= quantity. */
  lemma CheckoutMayOversell(s: Store, userId: int, now: int, l: CartLine)
    requires CartService.CartUnique(s.carts)
    requires Checkout(s, userId, now).response.success
    requires l in CartOf(s.carts, userId) && l.productId in s.products
    requires MinInt32 <= s.products[l.productId].stock - l.quantity <= MaxInt32
    ensures l.productId in Checkout(s, userId, now).store.products
    ensures Checkout(s, userId, now).store.products[l.productId].stock == s.products[l.productId].stock - l.quantity
  {
    CheckoutStock(s, userId, now);
  }

  lemma {:induction false} CartOfExceptSame(carts: seq<CartLine>, userId: int)
    ensures CartOf(CartsExcept(carts, userId), userId) == []
  {
    if |carts| > 0 {
      CartOfExceptSame(carts[1..], userId);
      CartOfAppend(if carts[0].userId != userId then [carts[0]] else [], CartsExcept(carts[1..], userId), userId);
    }
  }

  lemma {:induction false} CartOfExceptOther(carts: seq<CartLine>, userId: int, other: int)
    requires other != userId
    ensures CartOf(CartsExcept(carts, userId), other) == CartOf(carts, other)
  {
    if |carts| > 0 {
      CartOfExceptOther(carts[1..], userId, other);
      CartOfAppend(if carts[0].userId != userId then [carts[0]] else [], CartsExcept(carts[1..], userId), other);
    }
  }

  lemma {:induction false} CartOfAppend(a: seq<CartLine>, b: seq<CartLine>, userId: int)
    ensures CartOf(a + b, userId) == CartOf(a, userId) + CartOf(b, userId)
  {
    if |a| > 0 {
      assert (a + b)[0] == a[0];
      assert (a + b)[1..] == a[1..] + b;
      CartOfAppend(a[1..], b, userId);
    } else {
      assert a + b == b;
    }
  }

  /** After checkout the caller's cart is empty, every other user's cart is
      exactly as before, and a second checkout fails with "Cart is empty.". */
  lemma CheckoutClearsOnlyCallersCart(s: Store, userId: int, now: int, later: int)
    requires Checkout(s, userId, now).response.success
    ensures var s' := Checkout(s, userId, now).store;
      && CartOf(s'.carts, userId) == []
      && (forall v | v != userId :: CartOf(s'.carts, v) == CartOf(s.carts, v))
      && Checkout(s', userId, later) == Step(Fail(CartEmpty), s')
  {
    CartOfExceptSame(s.carts, userId);
    forall v | v != userId
      ensures CartOf(CartsExcept(s.carts, userId), v) == CartOf(s.carts, v)
    {
      CartOfExceptOther(s.carts, userId, v);
    }
  }

  /** Whatever product table the order is read against later (repriced,
      restocked, or missing rows, should the order lines outlive a product),
      the placed order reports the prices paid at checkout. */
  lemma PlacedOrderKeepsPrices(s: Store, userId: int, now: int, later: map<int, Product>)
    requires Checkout(s, userId, now).response.success
    ensures var lines := CartOf(s.carts, userId);
      var o := Checkout(s, userId, now).store.orders[|s.orders|];
      var dto := OrderToDto(o, later);
      && |dto.items| == |lines|
      && forall i | 0 <= i < |lines| :: dto.items[i].price == s.products[lines[i].productId].price
  {
    var o := Checkout(s, userId, now).store.orders[|s.orders|];
    OrderItemsAreLines(o, later, later);
  }

  /** Checkout keeps the identity discipline. */
  lemma CheckoutKeepsWf(s: Store, userId: int, now: int)
    requires Wf(s)
    ensures Wf(Checkout(s, userId, now).store)
  {
    var r := Checkout(s, userId, now);
    if r.response.success {
      var lines := CartOf(s.carts, userId);
      var o := r.store.orders[|s.orders|];
      var s1 := s.(orders := s.orders + [o], nextOrderId := s.nextOrderId + 1);
      AppendOrderWf(s, o);
      assert r.store.orders == s.orders + [o];
      var ps := DecrementStock(s.products, lines);
      var s2 := s1.(products := ps, carts := CartsExcept(s.carts, userId));
      assert r.store == s2;
      CartsExceptKeepsOrder(s.carts, userId, s.nextCartId);
      assert CartIdsOk(s2);
      assert ProductIdsOk(s2) by {
        forall k | k in ps
          ensures ps[k].id == k && 0 < k < s2.nextProductId
        {
          assert ps[k].id == s.products[k].id;
        }
      }
      assert UserIdsOk(s2) && CategoryIdsOk(s2) && OrderIdsOk(s2) by {
        assert UserIdsOk(s1) && CategoryIdsOk(s1) && OrderIdsOk(s1);
      }
    }
  }

  lemma {:induction false} CartsExceptKeepsOrder(carts: seq<CartLine>, userId: int, next: int)
    requires CartIdsBelow(carts, next)
    ensures CartIdsBelow(CartsExcept(carts, userId), next)
  {
    if |carts| > 0 {
      TailIdsBelow(carts, next);
      CartsExceptKeepsOrder(carts[1..], userId, next);
      var rest := CartsExcept(carts[1..], userId);
      if carts[0].userId != userId {
        forall l | l in rest
          ensures carts[0].id < l.id
        {
          HeadIdBelowTail(carts, next, l);
        }
        ConsIdsBelow(carts[0], rest, next);
      }
    }
  }

  lemma TailIdsBelow(carts: seq<CartLine>, next: int)
    requires |carts| > 0 && CartIdsBelow(carts, next)
    ensures CartIdsBelow(carts[1..], next)
  {
    forall i, j | 0 <= i < j < |carts[1..]|
      ensures carts[1..][i].id < carts[1..][j].id
    {
      assert carts[1..][i] == carts[i + 1] && carts[1..][j] == carts[j + 1];
    }
  }

  lemma HeadIdBelowTail(carts: seq<CartLine>, next: int, l: CartLine)
    requires |carts| > 0 && CartIdsBelow(carts, next)
    requires l in carts[1..]
    ensures carts[0].id < l.id
  {
    var k :| 0 <= k < |carts[1..]| && carts[1..][k] == l;
    assert carts[k + 1] == l;
  }

  lemma ConsIdsBelow(x: CartLine, rest: seq<CartLine>, next: int)
    requires CartIdsBelow(rest, next) && 0 < x.id < next
    requires forall l | l in rest :: x.id < l.id
    ensures CartIdsBelow([x] + rest, next)
  {
    var r := [x] + rest;
    forall i, j | 0 <= i < j < |r|
      ensures r[i].id < r[j].id
    {
      assert r[j] == rest[j - 1];
      if i > 0 {
        assert r[i] == rest[i - 1];
      } else {
        assert rest[j - 1] in rest;
      }
    }
  }

  /** Checkout keeps at most one cart line per (user, product). */
  lemma {:induction false} CheckoutKeepsCartUnique(s: Store, userId: int, now: int)
    requires CartService.CartUnique(s.carts)
    ensures CartService.CartUnique(Checkout(s, userId, now).store.carts)
  {
    if Checkout(s, userId, now).response.success {
      CartsExceptKeepsUnique(s.carts, userId);
    }
  }

  lemma {:induction false} CartsExceptKeepsUnique(carts: seq<CartLine>, userId: int)
    requires CartService.CartUnique(carts)
    ensures CartService.CartUnique(CartsExcept(carts, userId))
  {
    if |carts| > 0 {
      assert CartService.CartUnique(carts[1..]) by {
        forall i, j | 0 <= i < j < |carts[1..]|
          ensures carts[1..][i].userId != carts[1..][j].userId || carts[1..][i].productId != carts[1..][j].productId
        {
          assert carts[1..][i] == carts[i + 1] && carts[1..][j] == carts[j + 1];
        }
      }
      CartsExceptKeepsUnique(carts[1..], userId);
      var rest := CartsExcept(carts[1..], userId);
      forall l | l in rest
        ensures carts[0].userId != l.userId || carts[0].productId != l.productId
      {
        assert l in carts[1..];
        var k :| 0 <= k < |carts[1..]| && carts[1..][k] == l;
        assert carts[k + 1] == l;
      }
    }
  }
}

=== FILE: primitives.dfy ===
/** Machine-level behaviour the services rely on: 32-bit two's-complement
    `int` arithmetic (C# defaults to unchecked, so `+=` and `-=` wrap) and
    `string.ToLower()` used for case-insensitive comparisons. */
module Primitives {

  const MinInt32: int := -0x8000_0000
  const MaxInt32: int := 0x7fff_ffff
  const Modulus32: int := 0x1_0000_0000

  /** The values of a C# `int`. */
  type Int32 = x: int | MinInt32 <= x <= MaxInt32

  /** The `int` an unchecked C# addition or subtraction yields for the
      mathematical result `x`. */
  function Wrap32(x: int): (r: Int32)
    ensures MinInt32 <= x <= MaxInt32 ==> r == x
  {
    (x - MinInt32) % Modulus32 + MinInt32
  }

  /** The wrapped value differs from the exact one by a multiple of 2^32. */
  lemma WrapCongruent(x: int)
    ensures (Wrap32(x) - x) % Modulus32 == 0
  {
  }

  /** Wrapping twice is wrapping once: consecutive unchecked updates compose
      like one update by the summed amount. */
  lemma WrapTwice(x: int, d: int)
    ensures Wrap32(Wrap32(x) + d) == Wrap32(x + d)
  {
    var w := Wrap32(x);
    WrapCongruent(x);
    var k := (w - x) / Modulus32;
    assert w == x + k * Modulus32;
    assert (w + d - MinInt32) == (x + d - MinInt32) + k * Modulus32;
    ModShift(x + d - MinInt32, k);
  }

  lemma ModShift(a: int, k: int)
    ensures (a + k * Modulus32) % Modulus32 == a % Modulus32
  {
  }

  /** ASCII case folding of one character: the part of culture-sensitive
      `ToLower` this model keeps. */
  function LowerChar(c: char): (r: char)
    ensures 'A' <= c <= 'Z' ==> 'a' <= r <= 'z' && r as int - c as int == 32
    ensures !('A' <= c <= 'Z') ==> r == c
  {
    if 'A' <= c <= 'Z' then (c as int + 32) as char else c
  }

  /** A string folded to lower case, character by character. */
  function Lower(s: string): (r: string)
    ensures |r| == |s|
    ensures forall i | 0 <= i < |s| :: r[i] == LowerChar(s[i])
  {
    seq(|s|, i requires 0 <= i < |s| => LowerChar(s[i]))
  }

  /** Two strings equal once both are folded to lower case: the e-mail and
      category-name comparison the services use. */
  predicate SameIgnoringCase(a: string, b: string)
  {
    Lower(a) == Lower(b)
  }
}

=== FILE: product_service.dfy ===
/** The product catalogue: lookup, creation with category resolution and
    image choice, restocking and deletion. */
module ProductService {
  import opened Wrappers
  import opened Primitives
  import opened Models
  import opened Dtos
  import opened Envelope
  import opened Mapping

  const NotFound: string := "Product not found."
  const CategoryNotFound: string := "Category not found. Please provide a valid CategoryId or CategoryName."
  const Created: string := "Product created successfully."
  const StockUpdated: string := "Stock updated successfully."
  const Deleted: string := "Product deleted successfully."

  /** Image URL stored when no file is uploaded. */
  const PlaceholderImage: string := "https://via.placeholder.com/150"

  /** Public path under which uploaded images are served. */
  const ImagesPath: string := "/images/"

  /** Fails with "Product not found." exactly when no product has the id;
      otherwise returns that product with its category's name. */
  function GetProductById(s: Store, id: int): (r: Response<ProductDto>)
    ensures r.success <==> id in s.products
    ensures !r.success ==> r.message == NotFound && r.data.None?
    ensures r.success ==> r.data == Some(ProductToDto(s.products[id], s.categories))
  {
    if id in s.products then Ok(ProductToDto(s.products[id], s.categories), DefaultMessage)
    else Fail(NotFound)
  }

  /** Index of the first category whose name equals `name` ignoring case. */
  function CategoryNameIndex(cs: seq<Category>, name: string): (r: Option<nat>)
    ensures r.None? <==> forall i | 0 <= i < |cs| :: !SameIgnoringCase(cs[i].name, name)
    ensures r.Some? ==> r.value < |cs| && SameIgnoringCase(cs[r.value].name, name)
    ensures r.Some? ==> forall i | 0 <= i < r.value :: !SameIgnoringCase(cs[i].name, name)
  {
    if |cs| == 0 then None
    else if SameIgnoringCase(cs[0].name, name) then Some(0)
    else match CategoryNameIndex(cs[1..], name)
      case None => None
      case Some(k) => Some(k + 1)
  }

  /** The first category whose name equals `name` ignoring case: no
      category before it matches. */
  function FindCategoryByName(cs: seq<Category>, name: string): (r: Option<Category>)
    ensures r.None? <==> forall i | 0 <= i < |cs| :: !SameIgnoringCase(cs[i].name, name)
    ensures r.Some? ==> r.value in cs && SameIgnoringCase(r.value.name, name)
    ensures r.Some? ==>
      exists k | 0 <= k < |cs| :: cs[k] == r.value && forall i | 0 <= i < k :: !SameIgnoringCase(cs[i].name, name)
  {
    match CategoryNameIndex(cs, name)
    case None => None
    case Some(k) => Some(cs[k])
  }

  /** The category a create request names: by id when the id is positive
      and exists, otherwise the first category with that name ignoring case
      when a name is given. */
  function ResolveCategory(cs: seq<Category>, categoryId: int, categoryName: string): (r: Option<Category>)
    ensures r.Some? ==> r.value in cs
    ensures categoryId > 0 && FindCategory(cs, categoryId).Some? ==>
      r.Some? && r.value.id == categoryId
    ensures !(categoryId > 0 && FindCategory(cs, categoryId).Some?) && |categoryName| > 0 ==>
      && (r.Some? <==> exists i | 0 <= i < |cs| :: SameIgnoringCase(cs[i].name, categoryName))
      && (r.Some? ==> SameIgnoringCase(r.value.name, categoryName))
      && (r.Some? ==>
            exists k | 0 <= k < |cs| :: cs[k] == r.value && forall i | 0 <= i < k :: !SameIgnoringCase(cs[i].name, categoryName))
    ensures !(categoryId > 0 && FindCategory(cs, categoryId).Some?) && |categoryName| == 0 ==>
      r.None?
  {
    var byId := if categoryId > 0 then FindCategory(cs, categoryId) else None;
    if byId.None? && |categoryName| > 0 then FindCategoryByName(cs, categoryName) else byId
  }

  /** The URL stored for the product's image: the placeholder without an
      upload, else the public path of the file saved as `<guid>_<name>`. */
  function ImageUrl(imageFile: Option<string>, guid: string): (r: string)
    ensures imageFile.None? ==> r == PlaceholderImage
    ensures imageFile.Some? ==>
      && |r| == |ImagesPath| + |guid| + 1 + |imageFile.value|
      && r[..|ImagesPath|] == ImagesPath
      && r[|ImagesPath|..|ImagesPath| + |guid|] == guid
      && r[|r| - |imageFile.value|..] == imageFile.value
      && r != PlaceholderImage
  {
    assert imageFile.Some? ==> (ImagesPath + guid + "_" + imageFile.value)[0] != PlaceholderImage[0];
    match imageFile
    case None => PlaceholderImage
    case Some(name) => ImagesPath + guid + "_" + name
  }

  /** Two uploads under different GUIDs of the same length (as GUID
      strings are) never share a URL, whatever the file names. */
  lemma ImageUrlDistinguishesUploads(name1: string, name2: string, guid1: string, guid2: string)
    requires |guid1| == |guid2| && guid1 != guid2
    ensures ImageUrl(Some(name1), guid1) != ImageUrl(Some(name2), guid2)
  {
  }

  /** Fails, storing nothing, when the category does not resolve. Otherwise
      inserts one product with the next identity, the request's fields, the
      resolved category and the chosen image, and answers with the stored
      row's projection, its category name set to the resolved category's. */
  function CreateProduct(s: Store, req: CreateProductRequest, guid: string): (r: Step<ProductDto>)
    ensures ResolveCategory(s.categories, req.categoryId, req.categoryName).None? ==>
      r == Step(Fail(CategoryNotFound), s)
    ensures ResolveCategory(s.categories, req.categoryId, req.categoryName).Some? ==>
      var c := ResolveCategory(s.categories, req.categoryId, req.categoryName).value;
      var id := s.nextProductId;
      && r.response.success && r.response.message == Created
      && r.store == s.(products := r.store.products, nextProductId := id + 1)
      && r.store.products.Keys == s.products.Keys + {id}
      && (forall k | k in s.products && k != id :: r.store.products[k] == s.products[k])
      && var p := r.store.products[id];
      && p.id == id && p.name == req.name && p.description == req.description
      && p.price == req.price && p.stock == req.stock && p.categoryId == c.id
      && (req.imageFile.None? ==> p.imageUrl == PlaceholderImage)
      && (req.imageFile.Some? ==> p.imageUrl == ImagesPath + guid + "_" + req.imageFile.value)
      && r.response.data == Some(ProductToDto(p, s.categories).(categoryName := c.name))
      && r.response.data.value.categoryName == c.name
      && r.response.data.value.id == id && r.response.data.value.categoryId == c.id
      && r.response.data.value.name == req.name && r.response.data.value.description == req.description
      && r.response.data.value.price == req.price && r.response.data.value.stock == req.stock
      && r.response.data.value.imageUrl == p.imageUrl
    ensures Wf(s) ==> Wf(r.store)
  {
    match ResolveCategory(s.categories, req.categoryId, req.categoryName)
    case None => Step(Fail(CategoryNotFound), s)
    case Some(c) =>
      var id := s.nextProductId;
      var p := ProductFromRequest(req, id).(categoryId := c.id, imageUrl := ImageUrl(req.imageFile, guid));
      var dto := ProductToDto(p, s.categories).(categoryName := c.name);
      InsertProductWf(s, p);
      Step(Ok(dto, Created), s.(products := s.products[id := p], nextProductId := id + 1))
  }

  /** Unknown product: fails, store unchanged. Otherwise the stock grows by
      the requested amount (no sign check; 32-bit wrap-around) and nothing
      else changes. */
  function AddStock(s: Store, req: UpdateStockRequest): (r: Step<ProductDto>)
    ensures req.productId !in s.products ==> r == Step(Fail(NotFound), s)
    ensures req.productId in s.products ==>
      var p := s.products[req.productId];
      && r.response.success && r.response.message == StockUpdated
      && r.store == s.(products := r.store.products)
      && r.store.products.Keys == s.products.Keys
      && (forall k | k in s.products && k != req.productId :: r.store.products[k] == s.products[k])
      && r.store.products[req.productId] == p.(stock := Wrap32(p.stock + req.quantityToAdd))
      && r.response.data == Some(ProductToDto(r.store.products[req.productId], s.categories))
    ensures Wf(s) ==> Wf(r.store)
  {
    if req.productId !in s.products then Step(Fail(NotFound), s)
    else
      var p := s.products[req.productId];
      var p' := p.(stock := Wrap32(p.stock + req.quantityToAdd));
      Step(Ok(ProductToDto(p', s.categories), StockUpdated), s.(products := s.products[req.productId := p']))
  }

  /** Unknown product: fails, store unchanged. Otherwise exactly that
      product is removed and the answer is `true`. */
  function DeleteProduct(s: Store, id: int): (r: Step<bool>)
    ensures id !in s.products ==> r == Step(Fail(NotFound), s)
    ensures id in s.products ==>
      && r.response == Response(true, Deleted, Some(true))
      && r.store == s.(products := r.store.products)
      && r.store.products.Keys == s.products.Keys - {id}
      && (forall k | k in r.store.products :: r.store.products[k] == s.products[k])
    ensures Wf(s) ==> Wf(r.store)
  {
    if id !in s.products then Step(Fail(NotFound), s)
    else Step(Response(true, Deleted, Some(true)), s.(products := s.products - {id}))
  }

  // ---------------------------------------------------------------------
  // Properties relating several operations.
  // ---------------------------------------------------------------------

  /** A created product can be read back, with its category's name. */
  lemma CreateThenGet(s: Store, req: CreateProductRequest, guid: string)
    requires Wf(s)
    requires ResolveCategory(s.categories, req.categoryId, req.categoryName).Some?
    ensures var c := ResolveCategory(s.categories, req.categoryId, req.categoryName).value;
      var r := GetProductById(CreateProduct(s, req, guid).store, s.nextProductId);
      r.success && r.data.value.categoryName == c.name && r.data.value.name == req.name
  {
    var c := ResolveCategory(s.categories, req.categoryId, req.categoryName).value;
    var s' := CreateProduct(s, req, guid).store;
    ProductCategoryName(s', s'.products[s.nextProductId], c);
  }

  /** Two restocks add up: restocking by `a` then `b` leaves the same store
      as one restock by `a + b` (modulo 2^32, as the `int` column does). */
  lemma {:induction false} AddStockComposes(s: Store, id: int, a: Int32, b: Int32)
    requires id in s.products
    ensures var s1 := AddStock(s, UpdateStockRequest(id, a)).store;
      AddStock(s1, UpdateStockRequest(id, b)).store ==
      s.(products := s.products[id := s.products[id].(stock := Wrap32(s.products[id].stock + a + b))])
  {
    var p := s.products[id];
    var p1 := p.(stock := Wrap32(p.stock + a));
    var p2 := p.(stock := Wrap32(p.stock + a + b));
    var s1 := AddStock(s, UpdateStockRequest(id, a)).store;
    RestockedStore(s, id, a);
    assert s1 == s.(products := s.products[id := p1]);
    RestockedStore(s1, id, b);
    RestockTwice(p, a, b);
    assert s1.products[id] == p1;
    assert s1.products[id := p2] == s.products[id := p2];
    assert s1.(products := s1.products[id := p2]) == s.(products := s.products[id := p2]);
  }

  /** Two restocks of one row are one restock by the sum. */
  lemma RestockTwice(p: Product, a: Int32, b: Int32)
    ensures var p1 := p.(stock := Wrap32(p.stock + a));
      p1.(stock := Wrap32(p1.stock + b)) == p.(stock := Wrap32(p.stock + a + b))
  {
    WrapTwice(p.stock + a, b);
  }

  /** The store a restock of a listed product commits, as one value. */
  lemma RestockedStore(s: Store, id: int, q: Int32)
    requires id in s.products
    ensures AddStock(s, UpdateStockRequest(id, q)).store
      == s.(products := s.products[id := s.products[id].(stock := Wrap32(s.products[id].stock + q))])
  {
  }

  /** Without overflow, restocking adds exactly the requested amount, and
      a negative amount lowers the stock: there is no sign check. */
  lemma AddStockExact(s: Store, id: int, q: Int32)
    requires id in s.products
    requires MinInt32 <= s.products[id].stock + q <= MaxInt32
    ensures GetProductById(AddStock(s, UpdateStockRequest(id, q)).store, id).data.value.stock
      == s.products[id].stock + q
    ensures q < 0 ==> AddStock(s, UpdateStockRequest(id, q)).store.products[id].stock < s.products[id].stock
  {
  }

  /** A deleted product can no longer be read, and stored orders are not
      touched by catalogue changes. */
  lemma DeleteThenGetFails(s: Store, id: int, q: Int32)
    requires id in s.products
    ensures !GetProductById(DeleteProduct(s, id).store, id).success
    ensures DeleteProduct(s, id).store.orders == s.orders
    ensures AddStock(s, UpdateStockRequest(id, q)).store.orders == s.orders
  {
  }
}

=== FILE: wrappers.dfy ===
/** Optional values, used for lookups that may find nothing and for
    response payloads that are left at their default. */
module Wrappers {

  datatype Option<+T> = None | Some(value: T)
}
